=== FILE: README.md ===
# coastpad inertia core in Dafny

coastpad gives a macOS trackpad momentum. When the finger lifts, the cursor keeps
gliding and slows down exponentially. A held button turns this into a drag coast:
the real mouse-up is withheld and replayed at the final coast point. This project
models the part of coastpad that decides what happens:

- the two-sample velocity tracker and the release velocity;
- the coast loop: exponential decay with a hard stop, clamping to the cached
  display box, and the fractional-pixel accumulator behind drag events;
- the touch-frame state machine over the drag phase
  (`None`, `Coasting`, `Following`, `PendingDecision`);
- mouse-down and the interception of mouse-up;
- `Stop`, the `Run` loop, and the finger count of the multitouch callback;
- the older revision (`main.go`), which keeps the drag phase in three boolean
  flags instead of one enumeration.

Every handler in the source works in two halves. It prepares an action under
`App.mu` and then performs the native calls after unlocking. The model keeps
that split:

- the prepare half is a pure function from `App` to a new `App` plus an action
  record;
- the execute half turns the action into a list of `Effect`s, the native calls
  in order.

Withheld mouse-up events are `Handle`s, with 0 as the null reference. Two
counters over a trace record every acquisition (`CFRetain`) and every disposal
(post, end of drag session, discard, `CFRelease`). This is enough to state the
central promise: every withheld mouse-up is disposed of exactly once.

Files:

| file | module | contents |
|---|---|---|
| numeric.dfy | `Numeric` | `Abs`, Go's truncating `int()`, squared magnitude |
| app.dfy | `AppState` | constants, `DragPhase`, `App`, `NewApp` |
| effects.dfy | `Effects` | the native effects and the per-handle ledger |
| velocity.dfy | `Velocity` | `recordCursor`, `calcReleaseVelocity` |
| physics.dfy | `Physics` | `extractIntegerDelta`, `applyDecay`, `clampToScreen`, `cacheScreenBounds` |
| drag.dfy | `Drag` | `resetCoasting`, `onMouseDown`, `handleMouseUp` |
| coast.dfy | `Coast` | `prepareCoastFrame`, `executeCoastFrame` |
| touch.dfy | `Touch` | `onTouchFrame` and the touch handlers it calls |
| session.dfy | `Session` | `Stop`, `Run`, one input at a time, the ownership ledger over whole sessions |
| multitouch.dfy | `Multitouch` | `countActiveFingers`, `goTouchCallback` |
| legacy.dfy | `Legacy` | the three-flag revision and its agreement with the phase revision |
| scenarios.dfy | `Scenarios` | concrete sessions worked through the handlers |

Behaviour worth noting:

- `clampToScreen` clamps to one box. That box is the union of all displays,
  with the outer edges pulled in by one pixel (`mouse.go:25-45`, `coast.go:99-106`).
  There is no list of rectangles and no "last known rectangle" index.
- A plain coast (no drag) moves the cursor relatively with `moveMouse` by
  `v * dt` (`coast.go:41-44`, `coast.go:63-65`). It does not advance, clamp or
  set an absolute position.
- `handleMouseUp` withholds the event while coasting, or while the button is down
  and a finger is on the pad (`drag.go:47`). It has no condition on the drag
  having started with several fingers.
- The loop ticks every 16 ms (`app.go:14`).

## Model

| member | source | states |
|---|---|---|
| AppState.NewApp | app.go:78-82 | A new app has no drag phase, no held mouse-up, no velocity, no remainder, no history, no button and no finger, and is not stopped. |
| Numeric.Trunc | coast.go:110-117 | Go's `int()` on a float: the result is within one of the input and never overshoots it away from zero. |
| Velocity.RecordCursor | touch.go:256-264 | The two-slot history always holds the newest two samples: the result is the last two of the history extended by the new sample, and the new sample is newest. |
| Velocity.RecordStreamKeepsLastTwo | touch.go:256-264 | Recording any stream of samples one by one leaves exactly the newest two samples of everything recorded. |
| Velocity.CalcReleaseVelocity | touch.go:268-278 | Fewer than two samples, or two samples closer than `minTimeDelta` in time, give (0, 0). Otherwise velocity times elapsed time equals displacement on each axis. |
| Velocity.StationaryReleaseHasNoVelocity | touch.go:268-278 | Two samples at the same position give no velocity, however close together in time. |
| Physics.ExtractAxis | coast.go:110-117 | One axis of the accumulator: emitted whole pixels plus the kept remainder equal the old remainder plus the delta. The remainder lies in (-1, 1) and has the sign of the sum. |
| Physics.ExtractIntegerDelta | coast.go:110-117 | Both axes conserve "emitted plus remainder", both remainders stay in (-1, 1) with the sign of the sum (truncation toward zero), and no other field of the app changes. |
| Physics.Emit | coast.go:110-117 | Over any stream of per-frame deltas, the total emitted plus the final remainder equals the starting remainder plus the total displacement. |
| Physics.EmitRemainderBounded | coast.go:110-117 | After any non-empty stream of deltas the remainder is in (-1, 1). |
| Physics.EmitTracksDisplacement | coast.go:110-117 | Whole pixels posted stay within one pixel of the true displacement (two without the starting remainder). |
| Physics.ApplyDecay | coast.go:121-130 | Only the velocity changes. The result is zero exactly when the scaled speed is below `stopThreshold`; otherwise it is the scaled velocity, at or above the threshold. |
| Physics.DecayShrinksSpeed | coast.go:121-130 | With a factor in (0, 1), no axis speeds up, every moving axis slows strictly, and no axis reverses. |
| Physics.ClampToScreen | coast.go:77-92 | Each axis is clamped independently into the box. A clamped axis lands on a bound and loses its velocity; an unclamped axis keeps both. An in-box position is unchanged, and only position and velocity change. |
| Physics.ClampIdempotent | coast.go:77-92 | Clamping twice equals clamping once. |
| Physics.CacheScreenBounds | coast.go:99-106 | The cached box keeps the display's minimum corner and pulls the outer edges in by one; nothing else changes. |
| Physics.CachedClampStaysOnDisplay | coast.go:77-106 | A coast point clamped to a freshly cached box lies on the display, at or after its first pixel and strictly before its outer edge, on both axes. |
| Effects.ReleasePendingMouseUp | main.go:576-581 | A null handle gives no effect. Any other handle is disposed of exactly once, and nothing else is acquired or disposed. |
| Effects.ReleasePendingMouseUpAt | mouse.go:101-107 | The same, for the relocating variant. |
| Drag.ResetCoasting | drag.go:67-80 | Every drag field is cleared and the held handle is returned to the caller. Position, history, touch state and cached box are untouched. |
| Drag.OnMouseDown | drag.go:11-37 | Afterwards the button is down and no mouse-up is held. The old one is disposed of exactly once: posted if coasting, discarded unposted otherwise. Coasting is reset: no phase, velocity, remainder or multi-finger flag, with the coast point, box and history kept. |
| Drag.Withhold | drag.go:47-57 | Consuming a mouse-up retains the new event once and releases the replaced one once. |
| Drag.HandleMouseUp | drag.go:44-62 | The event is consumed exactly when coasting, or when the button is down with a finger on the pad. A consumed event becomes the held one and the previous one is released. A passed event only clears the button. |
| Coast.AdvanceDragCoast | coast.go:28-40 | The coast point moves by `v * dt` and is then clamped to the box, so it stays inside the box. Posted whole pixels plus the new remainder equal the old remainder plus the distance actually moved, after clamping. |
| Coast.PrepareCoastFrame | coast.go:19-58 | A still app is untouched. The held mouse-up is kept or handed over. Only a drag coast posts drag events, to the point `AdvanceDragCoast` reaches; a plain coast moves by `v * dt`. The velocity is then scaled by `factor`, and the coast stops exactly when the decayed velocity is zero. The frame that stops the coast clears the drag state and hands over the held mouse-up. Nothing else changes: a frame that keeps coasting changes only the velocity after the move, a plain coast never moves the coast point, and the box and history are kept. |
| Coast.ExecuteCoastFrame | coast.go:61-72 | Motion comes first: one drag event while drag coasting, otherwise one relative move when the move is non-zero. A stopped drag coast ends with an end-of-session at the final point. The carried handle is disposed of exactly once, and nothing else is done. |
| Coast.CoastEndDisposesOnce | coast.go:46-55 | The frame that stops a coast disposes of the held mouse-up exactly once. For a drag coast that disposal is the end-of-session at the final coast point; for a plain coast it is a plain post. |
| Touch.HandleTouchDuringCoast | touch.go:79-101 | A re-touch stops the coast and zeroes the remainder. Several fingers resume following, warped to the coast point, which is recorded into the history; one finger waits for a decision and records the finger. |
| Touch.HandleTouchDuringPending | touch.go:106-137 | The drag ends with a mouse-up at the coast origin exactly when the finger moved more than 3 px. That frame records the finger into the history and keeps the remainder. Otherwise several fingers resume following from the coast point with a fresh history and the button unchanged, and one finger only records. |
| Touch.HandleTouchDefault | touch.go:142-171 | Dropping from a multi-finger drag to one finger ends the drag at the cursor. Following posts the finger's movement truncated toward zero to whole pixels, with the remainder conserved, and syncs only when they are non-zero. Every frame records the finger into the history. |
| Touch.HandleTouch | touch.go:60-74 | A touch never requests `endDragSession`. The held mouse-up is kept or handed over. A button held with several fingers marks a multi-finger drag, and coasting never survives a touch. |
| Touch.ReleaseDuringPending | touch.go:195-205 | A lift before the decision ends the drag with a mouse-up at the coast origin and clears the phase. |
| Touch.ReleaseDefault | touch.go:210-233 | A release with the button down and non-zero velocity starts a drag coast at the lift point, with a fresh box. Otherwise a held mouse-up ends the drag session at the lift point. |
| Touch.HandleRelease | touch.go:175-188 | The release empties the history, takes its velocity from it, and hands over the held mouse-up at most once, each branch as above. |
| Touch.PrepareTouchFrame | touch.go:39-56 | Touched exactly when some finger is down. A touch stops any coast. Only the first untouched frame acts; later untouched frames change nothing. |
| Touch.ExecuteTouchAction | touch.go:236-252 | Effects run in order: warp, sync, then one disposal. That disposal is the end of drag if one was asked for; otherwise it is the held event posted at the release point if a lone mouse-up was asked for, and as a plain mouse-up if not. The handle the action carries is disposed of exactly once, no other is, and nothing else is done. |
| Touch.OnTouchFrame | touch.go:13-22 | A failed cursor query changes nothing. Otherwise the held mouse-up is kept, or cleared and disposed of by this frame's effects. |
| Session.Tick | app.go:148-153 | One tick keeps the held mouse-up or disposes of exactly it, and leaves a still app alone. |
| Session.Run | app.go:135-156 | For an app that is not stopped, the loop is the replay of one tick input per tick. Each input carries the time since the previous tick and the decay factor `exp(-DecayRate * dt)`. Over all ticks it disposes of nothing but the mouse-up it found held, at most once, and it leaves a still or stopped app alone. |
| Session.RunTicksReplays | app.go:143-154 | Running the ticks one after another from a world is the same as replaying their tick inputs. |
| Session.Stop | app.go:106-119 | Only the first call acts. It disposes of the held mouse-up exactly once, so a stopped app holds none. |
| Session.Step | drag.go:44-62 | Each input keeps or disposes of the held mouse-up. A mouse-up is the only input that acquires, and a stopped app ignores everything but a late coast tick, after which the app stays stopped. |
| Session.StepKeepsOwnership | drag.go:44-62 | Every input preserves the ledger: each handle is retained at most once, the held one is not yet disposed, and every other retained one is disposed exactly once. |
| Session.ReplayKeepsOwnership | drag.go:44-62 | The ledger holds after any sequence of inputs whose mouse-ups are fresh events. |
| Session.EveryWithheldMouseUpDisposedOnce | app.go:106-119 | From a fresh app, after any inputs followed by `Stop`, every non-null mouse-up was disposed of exactly as often as it was retained, at most once. |
| Session.StepKeepsValid | touch.go:39-56 | Every input keeps the remainders in (-1, 1), keeps the coast stopped while a finger is down, and coasts only with a non-zero velocity. |
| Multitouch.CountActiveFingers | multitouch.go:126-134 | The count equals the number of contacts in the touching state (4). It is zero exactly when none is touching. |
| Multitouch.GoTouchCallback | multitouch.go:113-120 | Frames before the app exists are `Dropped`, and every later frame is handled by `OnTouchFrame` on the counted fingers. A handled frame counts as touched exactly when some contact is touching. |
| Legacy.FlagsOf | main.go:77-79 | Each phase maps to exclusive flags that decode back to it. |
| Legacy.FlagsRoundTrip | main.go:77-79 | Exclusive flags encode back to themselves. |
| Legacy.LegacyResetCoasting | main.go:557-572 | The flag revision's reset is the phase revision's reset. |
| Legacy.LegacyTouchFrameAgrees | main.go:321-450 | With exclusive flags, the flag revision's touch frame `LegacyPrepareTouchFrame` produces the phase revision's state and action, and keeps the flags exclusive. |
| Legacy.LegacyTouchedAgrees | main.go:328-408 | The same for the touched block alone. |
| Legacy.TouchDuringCoastAgrees | main.go:333-354 | The same for a touch while coasting. |
| Legacy.TouchDuringPendingAgrees | main.go:355-383 | The same for a touch while a decision is pending. |
| Legacy.DropToOneFingerAgrees | main.go:384-394 | The same for the drop from several fingers to one. |
| Legacy.FollowAgrees | main.go:395-407 | The same while following. |
| Legacy.LegacyReleasedAgrees | main.go:409-446 | The same for the release edge. |
| Legacy.LegacyCoastFrameAgrees | main.go:176-215 | With exclusive flags, the flag revision's coast frame `LegacyPrepareCoastFrame` produces the phase revision's state and action, and keeps the flags exclusive. |
| Legacy.LegacyMouseDownAgrees | main.go:500-527 | The flag revision's mouse-down `LegacyOnMouseDown` produces the phase revision's state and effects. |
| Legacy.LegacyMouseUpAgrees | main.go:534-552 | The flag revision's mouse-up interception `LegacyHandleMouseUp` gives the phase revision's verdict, state and effects. |
| Scenarios.FlickCoastsSixteenPixels | touch.go:268-278 | Samples 50 px and 50 ms apart give 1000 px/s, and one 16 ms tick then moves the cursor 16 px. |
| Scenarios.DragCoastKeepsWithholding | coast.go:19-72 | After a drag released at 500 px/s, the mouse-up is withheld. The first 16 ms tick posts an 8 px drag to x = 113 and keeps the event withheld, with the speed decayed to 500 times the factor. The factor is bracketed by [0.92, 0.93], which contains `exp(-0.08)`. |
| Scenarios.SlowCoastEndsDrag | coast.go:19-72 | A drag coast at 10.5 px/s stops on the next 16 ms tick. That tick posts a drag with no whole-pixel delta at x = 200.168, then ends the session there with the withheld event, and the app is left still with nothing held. |
| Scenarios.PendingMoveEndsAtCoastOrigin | touch.go:106-137 | A one-finger re-touch that then moves 5 px ends the drag with the held mouse-up at the coast origin. |
| Scenarios.RightEdgeStopsHorizontalOnly | coast.go:77-92 | At the right edge of a 1920 px display the coast stops at column 1919 with no horizontal speed. The vertical speed keeps decaying, to 200 times the 16 ms factor. |

## Left out

- The native layer is not modelled: event posting, cursor warps, `dragPoster`, `endDragSession`, `discardEvent` and `CFRetain`/`CFRelease`. These calls appear only as `Effect` entries in a trace.
- The cursor query and the display query are parameters (`CursorQuery`, `display`), as are the tick timestamps. They are the clock, the OS cursor and the display list.
- Device enumeration, hot-plug handling (`Open`, `NewTouchDevices`, `RefreshDevices`, `onDeviceChanged`), the event tap, signal handling and the command line are not modelled. They are I/O with no state-machine logic.
- The mutex and the three threads are not modelled. Each handler is one atomic step, which is what holding `App.mu` during the prepare half gives.
- The effects run after the lock is released, so two threads' effects can interleave in the source. The model orders a step's effects after its state change, one input at a time.
- `Physics.ApplyDecay`: `math.Exp(-decayRate*dt)` is a parameter `factor`. `Session.Run` takes `exp` as a function and applies it to `-DecayRate * dt`. Floating-point rounding is not modelled: float64 values are reals.
- `Numeric.Trunc`: Go's `int()` on a float outside the int64 range is not modelled. Integers are unbounded.
- `Physics.DecayShrinksSpeed`: states only that each axis shrinks. Repeated ticks reaching the hard stop in finitely many steps is not proved.
- `Session.EveryWithheldMouseUpDisposedOnce`: requires each intercepted mouse-up to be a distinct, non-null handle. That is how the event tap delivers them. Reuse of a released handle by the OS is not modelled.
- The flag revision's `Stop`, `Run`, `executeCoastFrame`, `executeTouchAction`, `onTouchFrame` and the physics helpers (`main.go:121-162`, `main.go:218-318`, `main.go:453-495`) are the same code as in the phase revision. The only difference is the device-closing call, so they are modelled once.
- `Session.Step`: after `Stop`, a coast tick still runs (the `select` in `app.go:143-154` may pick a ready ticker over the closed stop channel), so a drag coast may post `mouseDragged` after the released mouse-up. Frames and mouse events after `Stop` are ignored; the callbacks and the event tap are shut down by then (`eventtap.go:80-99`). The ledger is unaffected, since a stopped app holds no mouse-up.
- `Session.Run`: an app that is already stopped is left alone, and nothing inside the loop stops it. A `Stop` arriving between ticks is modelled only through `Session.Step` and `Session.Replay`.
- `Physics.CachedClampStaysOnDisplay`: requires a display at least one pixel wide and high, so that the cached box is not inverted.
- `Physics.ClampIdempotent`: requires a box whose minimum is at most its maximum on each axis. A display narrower than one pixel, whose cached box would be inverted, is not considered.

=== FILE: app.dfy ===
/** The shared state record of the inertia core (app.go): constants,
    the drag phase, the two-slot cursor history and the `App` record
    that every handler reads and rewrites under the lock. */
module AppState {

  /** Exponential decay rate of the coasting velocity, per second. */
  const DecayRate: real := 5.0
  /** Speed below which coasting snaps to a stop, in pixels per second. */
  const StopThreshold: real := 10.0
  /** Tick period of the coast loop, in milliseconds (about 60 Hz). */
  const LoopIntervalMillis: nat := 16
  /** Guard against dividing by a vanishing time difference. */
  const MinTimeDelta: real := 0.000000001
  /** Movement, in pixels per axis, that ends a pending drag decision. */
  const DragFollowMovementThreshold: real := 3.0

  /** The exclusive phase of drag-inertia handling. */
  datatype DragPhase = None | Coasting | Following | PendingDecision

  /** A withheld native mouse-up event; 0 is the null reference. */
  type Handle = nat
  const NoEvent: Handle := 0

  /** A cursor position observed while a finger is on the pad. */
  datatype CursorRecord = CursorRecord(x: real, y: real, timestamp: real)

  /** The history slots `history[0 .. histLen)`; the source keeps a
      fixed array of two records and a length, and never reads a slot at
      or beyond the length, so only the live prefix is kept. */
  type History = h: seq<CursorRecord> | |h| <= 2 witness []

  /** An axis-aligned box: the union of all display bounds as returned by
      the display query, or the cached clamp box derived from it. */
  datatype Bounds = Bounds(minX: real, minY: real, maxX: real, maxY: real)

  /** The state protected by `App.mu`. `stopped` records that the
      once-only shutdown body has run. */
  datatype App = App(
    history: History,
    isTouched: bool,
    vx: real,
    vy: real,
    isLeftButtonDown: bool,
    phase: DragPhase,
    wasMultiFingerDrag: bool,
    coastX: real,
    coastY: real,
    accumX: real,
    accumY: real,
    pendingMouseUp: Handle,
    screen: Bounds,
    stopped: bool)

  predicate Still(a: App)
  {
    a.vx == 0.0 && a.vy == 0.0
  }

  /** `NewApp`: every field at Go's zero value. */
  function NewApp(): (a: App)
    ensures a.phase == None && a.pendingMouseUp == NoEvent
    ensures Still(a) && !a.isTouched && |a.history| == 0
    ensures !a.isLeftButtonDown && !a.wasMultiFingerDrag && !a.stopped
    ensures a.accumX == 0.0 && a.accumY == 0.0
  {
    App([], false, 0.0, 0.0, false, None, false, 0.0, 0.0, 0.0, 0.0,
        NoEvent, Bounds(0.0, 0.0, 0.0, 0.0), false)
  }
}

=== FILE: coast.dfy ===
/** One frame of the coast loop (coast.go): prepared under the lock as
    a pure transition, executed afterwards as a fixed list of effects. */
module Coast {
  import opened Numeric
  import opened AppState
  import opened Effects
  import opened Physics
  import opened Drag

  datatype CoastAction = CoastAction(
    moveDx: real, moveDy: real,
    dragX: real, dragY: real,
    dragDx: int, dragDy: int,
    isDragCoasting: bool,
    coastEnded: bool,
    pending: Handle)

  /** Go's zero-valued `coastAction`. */
  const NoCoastAction := CoastAction(0.0, 0.0, 0.0, 0.0, 0, 0, false, false, NoEvent)

  datatype CoastOutcome = CoastOutcome(app: App, action: CoastAction)

  /** The held mouse-up either stays in the state and the action carries
      nothing, or leaves the state and the action carries it: it is never
      duplicated and never dropped. */
  predicate HandsOver(before: Handle, after: Handle, carried: Handle)
  {
    (after == before && carried == NoEvent) || (after == NoEvent && carried == before)
  }

  /** The drag-coast movement part of a frame: advance, clamp, extract. */
  function AdvanceDragCoast(a: App, dt: real): (r: Extracted)
    ensures r.app.history == a.history && r.app.isTouched == a.isTouched
    ensures r.app.phase == a.phase && r.app.pendingMouseUp == a.pendingMouseUp
    ensures r.app.screen == a.screen && r.app.stopped == a.stopped
    ensures r.app.isLeftButtonDown == a.isLeftButtonDown
    ensures r.app.wasMultiFingerDrag == a.wasMultiFingerDrag
    ensures a.screen.minX <= a.screen.maxX ==> a.screen.minX <= r.app.coastX <= a.screen.maxX
    ensures a.screen.minY <= a.screen.maxY ==> a.screen.minY <= r.app.coastY <= a.screen.maxY
    ensures r.dx as real + r.app.accumX == a.accumX + (r.app.coastX - a.coastX)
    ensures r.dy as real + r.app.accumY == a.accumY + (r.app.coastY - a.coastY)
    ensures -1.0 < r.app.accumX < 1.0 && -1.0 < r.app.accumY < 1.0
    ensures r.app.vx == a.vx || r.app.vx == 0.0
    ensures r.app.vy == a.vy || r.app.vy == 0.0
    // The coast point moves by `v * dt` and is then clamped to the box.
    ensures var c := ClampToScreen(a.(coastX := a.coastX + a.vx * dt, coastY := a.coastY + a.vy * dt));
      r.app.coastX == c.coastX && r.app.coastY == c.coastY && r.app.vx == c.vx && r.app.vy == c.vy
  {
    var moved := a.(coastX := a.coastX + a.vx * dt, coastY := a.coastY + a.vy * dt);
    var clamped := ClampToScreen(moved);
    ExtractIntegerDelta(clamped, clamped.coastX - a.coastX, clamped.coastY - a.coastY)
  }

  /** `prepareCoastFrame`. `factor` stands for `exp(-DecayRate * dt)`. */
  function PrepareCoastFrame(a: App, dt: real, factor: real): (r: CoastOutcome)
    // A still state is left alone and produces the empty action.
    ensures Still(a) ==> r == CoastOutcome(a, NoCoastAction)
    // The held mouse-up is either kept or handed to the action.
    ensures HandsOver(a.pendingMouseUp, r.app.pendingMouseUp, r.action.pending)
    // Only drag coasting posts drag events; plain coasting moves relatively.
    ensures r.action.isDragCoasting <==> !Still(a) && a.phase == Coasting
    ensures !Still(a) && a.phase != Coasting ==>
      r.action.moveDx == a.vx * dt && r.action.moveDy == a.vy * dt
    ensures r.action.isDragCoasting ==>
      && r.action.dragX == r.app.coastX && r.action.dragY == r.app.coastY
      && r.action.dragX == AdvanceDragCoast(a, dt).app.coastX
      && r.action.dragY == AdvanceDragCoast(a, dt).app.coastY
      && (a.screen.minX <= a.screen.maxX ==> a.screen.minX <= r.app.coastX <= a.screen.maxX)
      && (a.screen.minY <= a.screen.maxY ==> a.screen.minY <= r.app.coastY <= a.screen.maxY)
    // While drag coasting continues, the whole pixels posted plus the new
    // remainder account exactly for the distance the coast point moved.
    ensures r.action.isDragCoasting && !r.action.coastEnded ==>
      && r.action.dragDx as real + r.app.accumX == a.accumX + (r.app.coastX - a.coastX)
      && r.action.dragDy as real + r.app.accumY == a.accumY + (r.app.coastY - a.coastY)
    // The frame in which the velocity reaches zero ends the coast: the
    // drag fields are reset and the held mouse-up goes to the action.
    ensures !Still(a) && Still(r.app) ==>
      && DragCleared(r.app) && r.action.pending == a.pendingMouseUp
      && (r.action.coastEnded <==> a.phase == Coasting)
    ensures !Still(a) && !Still(r.app) ==>
      && r.app.phase == a.phase && r.app.pendingMouseUp == a.pendingMouseUp
      && !r.action.coastEnded
    // A running coast keeps the velocity `ApplyDecay` leaves after the
    // movement: the clamped velocity for a drag coast, the old one otherwise.
    ensures !Still(a) && !Still(r.app) ==>
      var m := if a.phase == Coasting then AdvanceDragCoast(a, dt).app else a;
      r.app.vx == ApplyDecay(m, factor).vx && r.app.vy == ApplyDecay(m, factor).vy
    ensures !Still(a) && !Still(r.app) && a.phase == Coasting ==>
      r.app.coastX == AdvanceDragCoast(a, dt).app.coastX && r.app.coastY == AdvanceDragCoast(a, dt).app.coastY
    // The frame stops exactly when the decayed velocity falls under the threshold.
    ensures !Still(a) ==>
      var m := if a.phase == Coasting then AdvanceDragCoast(a, dt).app else a;
      Still(r.app) <==> Still(ApplyDecay(m, factor))
    // Nothing but the velocity changes in a frame that keeps coasting, and
    // a stopping frame keeps the moved point, the box and the history.
    ensures !Still(a) && !Still(r.app) ==>
      r.app == (if a.phase == Coasting then AdvanceDragCoast(a, dt).app else a).(vx := r.app.vx, vy := r.app.vy)
    ensures !Still(a) ==>
      SameTrack(if a.phase == Coasting then AdvanceDragCoast(a, dt).app else a, r.app)
    ensures !Still(a) && a.phase != Coasting ==>
      r.app.coastX == a.coastX && r.app.coastY == a.coastY && r.app.screen == a.screen
    ensures r.action.coastEnded ==> Still(r.app) && r.action.isDragCoasting
    // The decay either stops the coast or leaves a speed above the threshold.
    ensures Still(r.app) || MagnitudeSq(r.app.vx, r.app.vy) >= StopThreshold * StopThreshold
    ensures r.app.history == a.history && r.app.isTouched == a.isTouched
    ensures -1.0 < a.accumX < 1.0 && -1.0 < a.accumY < 1.0 ==>
      -1.0 < r.app.accumX < 1.0 && -1.0 < r.app.accumY < 1.0
  {
    if Still(a) then CoastOutcome(a, NoCoastAction)
    else
      var stepped :=
        if a.phase == Coasting then
          var e := AdvanceDragCoast(a, dt);
          CoastOutcome(e.app, NoCoastAction.(
            dragDx := e.dx, dragDy := e.dy,
            dragX := e.app.coastX, dragY := e.app.coastY,
            isDragCoasting := true))
        else
          CoastOutcome(a, NoCoastAction.(moveDx := a.vx * dt, moveDy := a.vy * dt));
      var decayed := ApplyDecay(stepped.app, factor);
      if Still(decayed) then
        var act :=
          if decayed.phase == Coasting then
            stepped.action.(dragX := decayed.coastX, dragY := decayed.coastY, coastEnded := true)
          else stepped.action;
        var t := ResetCoasting(decayed);
        CoastOutcome(t.app, act.(pending := t.pending))
      else
        CoastOutcome(decayed, stepped.action)
  }

  /** `executeCoastFrame`: the drag event or relative move, then the
      disposal of the handle the frame carries. */
  function ExecuteCoastFrame(action: CoastAction): (es: seq<Effect>)
    ensures DisposesOnly(es, action.pending)
    ensures action.isDragCoasting ==>
      |es| > 0 && es[0] == PosterDrag(action.dragX, action.dragY, action.dragDx, action.dragDy)
    ensures !action.isDragCoasting && (action.moveDx != 0.0 || action.moveDy != 0.0) ==>
      |es| > 0 && es[0] == MoveMouse(action.moveDx, action.moveDy)
    ensures action.coastEnded ==>
      |es| > 0 && es[|es| - 1] == EndDragSession(action.pending, action.dragX, action.dragY)
    ensures !action.coastEnded && action.pending != NoEvent ==>
      |es| > 0 && es[|es| - 1] == PostMouseUp(action.pending)
    ensures (!action.isDragCoasting && action.moveDx == 0.0 && action.moveDy == 0.0
             && !action.coastEnded && action.pending == NoEvent) ==> es == []
    // Nothing else: at most one motion and one disposal.
    ensures |es| == (if action.isDragCoasting || action.moveDx != 0.0 || action.moveDy != 0.0 then 1 else 0)
                    + (if action.coastEnded || action.pending != NoEvent then 1 else 0)
  {
    var motion :=
      if action.isDragCoasting then
        [PosterDrag(action.dragX, action.dragY, action.dragDx, action.dragDy)]
      else if action.moveDx != 0.0 || action.moveDy != 0.0 then
        [MoveMouse(action.moveDx, action.moveDy)]
      else [];
    var ending :=
      if action.coastEnded then [EndDragSession(action.pending, action.dragX, action.dragY)]
      else [];
    var rest := if action.coastEnded then NoEvent else action.pending;
    MotionDisposesNothing(motion);
    CountSingle(EndDragSession(action.pending, action.dragX, action.dragY));
    CountsAppend3(motion, ending, ReleasePendingMouseUp(rest));
    motion + ending + ReleasePendingMouseUp(rest)
  }

  /** Cursor and drag effects neither acquire nor dispose of handles. */
  lemma MotionDisposesNothing(motion: seq<Effect>)
    requires forall i :: 0 <= i < |motion| ==>
      motion[i].PosterDrag? || motion[i].MoveMouse? || motion[i].SyncCursor? || motion[i].SyntheticDrag?
    ensures forall g: Handle :: Disposals(motion, g) == 0 && Retains(motion, g) == 0
    decreases |motion|
  {
    if |motion| > 0 {
      MotionDisposesNothing(motion[1..]);
    }
  }

  /** The frame that stops a drag coast ends the drag session exactly once
      at the final coast point; the frame that stops a plain coast posts
      whatever mouse-up was held, exactly once. */
  lemma CoastEndDisposesOnce(a: App, dt: real, factor: real)
    requires !Still(a) && a.pendingMouseUp != NoEvent
    requires Still(PrepareCoastFrame(a, dt, factor).app)
    ensures var r := PrepareCoastFrame(a, dt, factor);
      var es := ExecuteCoastFrame(r.action);
      && Disposals(es, a.pendingMouseUp) == 1
      && r.app.pendingMouseUp == NoEvent
      && |es| > 0
      && (a.phase == Coasting ==>
            es[|es| - 1] == EndDragSession(a.pendingMouseUp, r.app.coastX, r.app.coastY))
      && (a.phase != Coasting ==> es[|es| - 1] == PostMouseUp(a.pendingMouseUp))
  {
  }
}

=== FILE: drag.dfy ===
/** Mouse-button interception (drag.go): mouse-down, the withheld
    mouse-up, and the reset that ends drag coasting. */
module Drag {
  import opened AppState
  import opened Effects

  /** The state after a reset and the handle it took out of the state. */
  datatype Taken = Taken(app: App, pending: Handle)

  /** A handler's new state and the effects it performs once the lock is
      released. */
  datatype Stepped = Stepped(app: App, effects: seq<Effect>)

  /** `handleMouseUp`'s new state, its verdict to the event tap, and its
      effects. */
  datatype MouseUp = MouseUp(app: App, suppressed: bool, effects: seq<Effect>)

  /** No drag inertia, no button, no velocity, no remainder, no held handle. */
  predicate DragCleared(a: App)
  {
    && a.phase == None && !a.wasMultiFingerDrag && Still(a)
    && a.accumX == 0.0 && a.accumY == 0.0
    && a.pendingMouseUp == NoEvent && !a.isLeftButtonDown
  }

  /** The fields `resetCoasting` never touches. */
  predicate SameTrack(a: App, b: App)
  {
    && a.history == b.history && a.isTouched == b.isTouched
    && a.coastX == b.coastX && a.coastY == b.coastY
    && a.screen == b.screen && a.stopped == b.stopped
  }

  /** `resetCoasting`: clear every drag field and hand the held mouse-up
      (possibly null) to the caller, who must dispose of it. */
  function ResetCoasting(a: App): (r: Taken)
    ensures r.pending == a.pendingMouseUp
    ensures DragCleared(r.app)
    ensures SameTrack(a, r.app)
  {
    Taken(
      a.(phase := None, wasMultiFingerDrag := false, vx := 0.0, vy := 0.0,
         accumX := 0.0, accumY := 0.0, pendingMouseUp := NoEvent,
         isLeftButtonDown := false),
      a.pendingMouseUp)
  }

  /** `onMouseDown`. While coasting the held mouse-up is posted (the
      session it belongs to is over); outside coasting a held mouse-up
      belongs to a drag the new press supersedes and is dropped unposted.
      The button is down afterwards in every case. */
  function OnMouseDown(a: App): (r: Stepped)
    ensures r.app.isLeftButtonDown
    ensures r.app.pendingMouseUp == NoEvent
    ensures DisposesOnly(r.effects, a.pendingMouseUp)
    ensures a.phase == Coasting ==>
      && r.app.phase == None && Still(r.app) && !r.app.wasMultiFingerDrag
      && r.app.accumX == 0.0 && r.app.accumY == 0.0 && SameTrack(a, r.app)
      && r.effects == ReleasePendingMouseUp(a.pendingMouseUp)
    ensures a.phase != Coasting && a.pendingMouseUp != NoEvent ==>
      && r.effects == [DiscardEvent(a.pendingMouseUp)]
      && r.app.phase == None && !r.app.wasMultiFingerDrag
      && r.app.accumX == 0.0 && r.app.accumY == 0.0
      && r.app.vx == a.vx && r.app.vy == a.vy && SameTrack(a, r.app)
    ensures a.phase != Coasting && a.pendingMouseUp == NoEvent ==>
      r.app == a.(isLeftButtonDown := true) && r.effects == []
  {
    if a.phase == Coasting then
      var t := ResetCoasting(a);
      Stepped(t.app.(isLeftButtonDown := true), ReleasePendingMouseUp(t.pending))
    else if a.pendingMouseUp != NoEvent then
      CountSingle(DiscardEvent(a.pendingMouseUp));
      Stepped(
        a.(pendingMouseUp := NoEvent, phase := None, wasMultiFingerDrag := false,
           accumX := 0.0, accumY := 0.0, isLeftButtonDown := true),
        [DiscardEvent(a.pendingMouseUp)])
    else
      Stepped(a.(isLeftButtonDown := true), ReleasePendingMouseUp(NoEvent))
  }

  /** The effects of a consumed mouse-up: retain the new event, release
      the one it replaces. */
  function Withhold(event: Handle, previous: Handle): (es: seq<Effect>)
    ensures forall g: Handle :: g != NoEvent ==> Disposals(es, g) == (if g == previous then 1 else 0)
    ensures forall g: Handle :: Retains(es, g) == (if g == event then 1 else 0)
  {
    CountSingle(RetainEvent(event));
    CountSingle(ReleaseEvent(previous));
    var tail := if previous != NoEvent then [ReleaseEvent(previous)] else [];
    assert forall g: Handle :: Disposals([RetainEvent(event)] + tail, g) == Disposals(tail, g) by {
      forall g: Handle { DisposalsAppend([RetainEvent(event)], tail, g); }
    }
    assert forall g: Handle :: Retains([RetainEvent(event)] + tail, g) == (if g == event then 1 else 0) by {
      forall g: Handle { RetainsAppend([RetainEvent(event)], tail, g); }
    }
    [RetainEvent(event)] + tail
  }

  /** `handleMouseUp`: consume the event while drag coasting, or while
      the button is down and a finger is on the pad. A consumed event
      becomes the held mouse-up and the one it replaces is released; a
      passed-through event only clears the button. */
  function HandleMouseUp(a: App, event: Handle): (r: MouseUp)
    ensures r.suppressed <==> (a.phase == Coasting || (a.isLeftButtonDown && a.isTouched))
    ensures r.suppressed ==> r.app == a.(pendingMouseUp := event)
    ensures !r.suppressed ==> r.app == a.(isLeftButtonDown := false) && r.effects == []
    ensures forall g: Handle :: g != NoEvent ==>
      Disposals(r.effects, g) == (if r.suppressed && g == a.pendingMouseUp then 1 else 0)
    ensures forall g: Handle :: Retains(r.effects, g) == (if r.suppressed && g == event then 1 else 0)
  {
    if a.phase == Coasting || (a.isLeftButtonDown && a.isTouched) then
      MouseUp(a.(pendingMouseUp := event), true, Withhold(event, a.pendingMouseUp))
    else
      MouseUp(a.(isLeftButtonDown := false), false, [])
  }
}

=== FILE: effects.dfy ===
/** Native effects as trace entries, and the ledger over a trace that
    counts how often each withheld mouse-up handle is acquired and
    disposed. */
module Effects {
  import opened AppState

  datatype Effect =
      /** `syncCursorViaDrag`: a zero-delta drag event that moves the cursor. */
    | SyncCursor(x: real, y: real)
      /** `postSyntheticDrag`: a drag event with integer deltas (touch path). */
    | SyntheticDrag(x: real, y: real, dx: int, dy: int)
      /** `dragPoster.post`: a drag event with integer deltas (coast loop). */
    | PosterDrag(x: real, y: real, dx: int, dy: int)
      /** `moveMouse`: a relative cursor move. */
    | MoveMouse(moveDx: real, moveDy: real)
      /** `endDragSession`: posts the handle at a position, warps there,
          restores the mouse/cursor association. */
    | EndDragSession(event: Handle, x: real, y: real)
      /** `releasePendingMouseUpAt` on a non-null handle: relocate, post, release. */
    | PostMouseUpAt(event: Handle, x: real, y: real)
      /** `releasePendingMouseUp` on a non-null handle: post, release. */
    | PostMouseUp(event: Handle)
      /** `discardEvent`: drop the handle without posting it. */
    | DiscardEvent(event: Handle)
      /** `CFRetain` of an intercepted mouse-up. */
    | RetainEvent(event: Handle)
      /** `CFRelease` of a withheld mouse-up that was replaced by a newer one. */
    | ReleaseEvent(event: Handle)

  predicate Disposes(e: Effect, h: Handle)
  {
    match e
    case EndDragSession(ev, _, _) => ev == h
    case PostMouseUpAt(ev, _, _) => ev == h
    case PostMouseUp(ev) => ev == h
    case DiscardEvent(ev) => ev == h
    case ReleaseEvent(ev) => ev == h
    case _ => false
  }

  /** How many entries of `trace` dispose of `h`. */
  function Disposals(trace: seq<Effect>, h: Handle): nat
  {
    if |trace| == 0 then 0
    else (if Disposes(trace[0], h) then 1 else 0) + Disposals(trace[1..], h)
  }

  /** How many entries of `trace` acquire `h`. */
  function Retains(trace: seq<Effect>, h: Handle): nat
  {
    if |trace| == 0 then 0
    else (if trace[0] == RetainEvent(h) then 1 else 0) + Retains(trace[1..], h)
  }

  lemma {:induction false} DisposalsAppend(s: seq<Effect>, t: seq<Effect>, h: Handle)
    ensures Disposals(s + t, h) == Disposals(s, h) + Disposals(t, h)
    decreases |s|
  {
    if |s| == 0 {
      assert s + t == t;
    } else {
      assert (s + t)[1..] == s[1..] + t;
      DisposalsAppend(s[1..], t, h);
    }
  }

  lemma {:induction false} RetainsAppend(s: seq<Effect>, t: seq<Effect>, h: Handle)
    ensures Retains(s + t, h) == Retains(s, h) + Retains(t, h)
    decreases |s|
  {
    if |s| == 0 {
      assert s + t == t;
    } else {
      assert (s + t)[1..] == s[1..] + t;
      RetainsAppend(s[1..], t, h);
    }
  }

  /** Both ledgers distribute over concatenation, for every handle. */
  lemma CountsAppend(a: seq<Effect>, b: seq<Effect>)
    ensures forall g: Handle :: Disposals(a + b, g) == Disposals(a, g) + Disposals(b, g)
    ensures forall g: Handle :: Retains(a + b, g) == Retains(a, g) + Retains(b, g)
  {
    forall g: Handle
      ensures Disposals(a + b, g) == Disposals(a, g) + Disposals(b, g)
      ensures Retains(a + b, g) == Retains(a, g) + Retains(b, g)
    {
      DisposalsAppend(a, b, g);
      RetainsAppend(a, b, g);
    }
  }

  /** The same over the concatenation of three lists. */
  lemma CountsAppend3(a: seq<Effect>, b: seq<Effect>, c: seq<Effect>)
    ensures forall g: Handle :: Disposals(a + b + c, g) == Disposals(a, g) + Disposals(b, g) + Disposals(c, g)
    ensures forall g: Handle :: Retains(a + b + c, g) == Retains(a, g) + Retains(b, g) + Retains(c, g)
  {
    forall g: Handle
      ensures Disposals(a + b + c, g) == Disposals(a, g) + Disposals(b, g) + Disposals(c, g)
      ensures Retains(a + b + c, g) == Retains(a, g) + Retains(b, g) + Retains(c, g)
    {
      DisposalsAppend(a + b, c, g);
      DisposalsAppend(a, b, g);
      RetainsAppend(a + b, c, g);
      RetainsAppend(a, b, g);
    }
  }

  lemma CountSingle(e: Effect)
    ensures forall g: Handle :: Disposals([e], g) == (if Disposes(e, g) then 1 else 0)
    ensures forall g: Handle :: Retains([e], g) == (if e == RetainEvent(g) then 1 else 0)
  {
    assert [e][1..] == [];
  }

  /** The effect list disposes of `h` exactly once when `h` is non-null,
      disposes of no other non-null handle, and acquires nothing. */
  ghost predicate DisposesOnly(es: seq<Effect>, h: Handle)
  {
    && (forall g: Handle :: g != NoEvent ==> Disposals(es, g) == (if g == h then 1 else 0))
    && (forall g: Handle :: Retains(es, g) == 0)
  }

  /** `releasePendingMouseUp`: nothing for a null handle, otherwise post
      it and release it. */
  function ReleasePendingMouseUp(h: Handle): (es: seq<Effect>)
    ensures h == NoEvent <==> es == []
    ensures DisposesOnly(es, h)
  {
    CountSingle(PostMouseUp(h));
    if h != NoEvent then [PostMouseUp(h)] else []
  }

  /** `releasePendingMouseUpAt`: as `ReleasePendingMouseUp`, relocating
      the event to `(x, y)` before posting it. */
  function ReleasePendingMouseUpAt(h: Handle, x: real, y: real): (es: seq<Effect>)
    ensures h == NoEvent <==> es == []
    ensures DisposesOnly(es, h)
  {
    CountSingle(PostMouseUpAt(h, x, y));
    if h != NoEvent then [PostMouseUpAt(h, x, y)] else []
  }
}

=== FILE: legacy.dfy ===
/** The earlier single-file revision (main.go), which kept the drag state
    in three boolean flags instead of one phase. Its touch, coast and
    button handlers are written here against the flags, branch for
    branch, and shown to behave exactly like the phase-based handlers
    whenever at most one flag is set -- which they keep. */
module Legacy {
  import opened Numeric
  import opened AppState
  import opened Effects
  import opened Velocity
  import opened Physics
  import opened Drag
  import opened Coast
  import opened Touch

  /** `isDragCoasting`, `isDragFollowing`, `isDragPendingDecision`. */
  datatype Flags = Flags(coasting: bool, following: bool, pendingDecision: bool)

  const Cleared := Flags(false, false, false)

  /** The three flags are meant to be mutually exclusive. */
  predicate Exclusive(f: Flags)
  {
    && !(f.coasting && f.following)
    && !(f.coasting && f.pendingDecision)
    && !(f.following && f.pendingDecision)
  }

  /** The phase the flags stand for, read in the order the handlers test
      them: coasting first, then pending decision, then following. */
  function PhaseOf(f: Flags): DragPhase
  {
    if f.coasting then Coasting
    else if f.pendingDecision then PendingDecision
    else if f.following then Following
    else None
  }

  function FlagsOf(p: DragPhase): (f: Flags)
    ensures Exclusive(f) && PhaseOf(f) == p
  {
    match p
    case None => Cleared
    case Coasting => Cleared.(coasting := true)
    case Following => Cleared.(following := true)
    case PendingDecision => Cleared.(pendingDecision := true)
  }

  /** Exclusive flag settings and phases are in one-to-one correspondence. */
  lemma FlagsRoundTrip(f: Flags)
    requires Exclusive(f)
    ensures FlagsOf(PhaseOf(f)) == f
  {
  }

  /** The legacy state: every field of `App` except the phase, which the
      flags replace (the `phase` field of `app` is never read). */
  datatype LegacyApp = LegacyApp(app: App, flags: Flags)

  /** The phase-based state a legacy state corresponds to. */
  function Lift(l: LegacyApp): App
  {
    l.app.(phase := PhaseOf(l.flags))
  }

  datatype LegacyTaken = LegacyTaken(state: LegacyApp, pending: Handle)
  datatype LegacyTouch = LegacyTouch(state: LegacyApp, action: TouchAction)
  datatype LegacyCoast = LegacyCoast(state: LegacyApp, action: CoastAction)
  datatype LegacyStepped = LegacyStepped(state: LegacyApp, effects: seq<Effect>)
  datatype LegacyMouseUp = LegacyMouseUp(state: LegacyApp, suppressed: bool, effects: seq<Effect>)

  /** `resetCoasting`, clearing all three flags. */
  function LegacyResetCoasting(l: LegacyApp): (r: LegacyTaken)
    ensures Exclusive(r.state.flags)
    ensures Lift(r.state) == ResetCoasting(Lift(l)).app
    ensures r.pending == ResetCoasting(Lift(l)).pending
  {
    var a := l.app;
    LegacyTaken(
      LegacyApp(
        a.(wasMultiFingerDrag := false, vx := 0.0, vy := 0.0, accumX := 0.0, accumY := 0.0,
           pendingMouseUp := NoEvent, isLeftButtonDown := false),
        Cleared),
      a.pendingMouseUp)
  }

  /** The touched block of `prepareTouchFrame` in the flag revision: note
      a multi-finger drag, then test coasting, then pending decision, then
      the remaining cases. */
  function LegacyTouched(l: LegacyApp, fingerCount: int, x: real, y: real, timestamp: real): LegacyTouch
  {
    var a := MarkMultiFinger(l.app, fingerCount);
    if l.flags.coasting then LegacyTouchDuringCoast(a, l.flags, fingerCount, x, y, timestamp)
    else if l.flags.pendingDecision then LegacyTouchDuringPending(a, l.flags, fingerCount, x, y, timestamp)
    else LegacyTouchDefault(a, l.flags, fingerCount, x, y, timestamp)
  }

  /** A finger lands while coasting: stop, and either follow from the coast
      position (several fingers) or wait for a decision. */
  function LegacyTouchDuringCoast(a: App, f: Flags, fingerCount: int, x: real, y: real, timestamp: real): LegacyTouch
  {
    var c := a.(accumX := 0.0, accumY := 0.0);
    if fingerCount > 1 then
      LegacyTouch(
        LegacyApp(Record(c, a.coastX, a.coastY, timestamp), f.(coasting := false, following := true)),
        NoTouchAction.(warpX := a.coastX, warpY := a.coastY, needWarp := true))
    else
      LegacyTouch(
        LegacyApp(Record(c, x, y, timestamp), f.(coasting := false, following := false, pendingDecision := true)),
        NoTouchAction)
  }

  /** A touch while a decision is pending: resume following, end the drag
      at the coast position, or keep waiting. */
  function LegacyTouchDuringPending(a: App, f: Flags, fingerCount: int, x: real, y: real, timestamp: real): LegacyTouch
  {
    var hasMoved := Abs(x - a.coastX) > DragFollowMovementThreshold
                 || Abs(y - a.coastY) > DragFollowMovementThreshold;
    if !hasMoved && fingerCount > 1 then
      LegacyTouch(
        LegacyApp(Record(a.(accumX := 0.0, accumY := 0.0, history := []), a.coastX, a.coastY, timestamp),
                  f.(following := true, pendingDecision := false)),
        NoTouchAction.(warpX := a.coastX, warpY := a.coastY, needWarp := true))
    else if hasMoved then
      LegacyTouch(
        LegacyApp(Record(a.(pendingMouseUp := NoEvent, isLeftButtonDown := false), x, y, timestamp),
                  f.(pendingDecision := false)),
        MouseUpOnlyAt(a.coastX, a.coastY, a.pendingMouseUp))
    else
      LegacyTouch(LegacyApp(Record(a, x, y, timestamp), f), NoTouchAction)
  }

  /** Any other touch: a drop to one finger ends a withheld drag, following
      forwards whole-pixel movement, and otherwise the cursor is recorded. */
  function LegacyTouchDefault(a: App, f: Flags, fingerCount: int, x: real, y: real, timestamp: real): LegacyTouch
  {
    if a.wasMultiFingerDrag && fingerCount == 1 && a.pendingMouseUp != NoEvent then
      LegacyTouch(
        LegacyApp(Record(a.(pendingMouseUp := NoEvent, isLeftButtonDown := false, wasMultiFingerDrag := false),
                         x, y, timestamp),
                  f.(following := false)),
        MouseUpOnlyAt(x, y, a.pendingMouseUp))
    else if f.following && a.isTouched && |a.history| > 0 then
      LegacyFollow(a, f, x, y, timestamp)
    else
      LegacyTouch(LegacyApp(Record(a, x, y, timestamp), f), NoTouchAction)
  }

  /** Following: forward the whole-pixel part of the finger's movement. */
  function LegacyFollow(a: App, f: Flags, x: real, y: real, timestamp: real): LegacyTouch
    requires |a.history| > 0
  {
    var last := a.history[|a.history| - 1];
    var e := ExtractIntegerDelta(a, x - last.x, y - last.y);
    var act :=
      if e.dx != 0 || e.dy != 0 then
        NoTouchAction.(syncDx := e.dx, syncDy := e.dy, needDragSync := true, syncX := x, syncY := y)
      else NoTouchAction.(syncDx := e.dx, syncDy := e.dy);
    LegacyTouch(LegacyApp(Record(e.app, x, y, timestamp), f), act)
  }

  /** The release-edge block of `prepareTouchFrame` in the flag revision:
      compute the release velocity, empty the history, then test the
      pending decision before the other cases. */
  function LegacyReleased(l: LegacyApp, x: real, y: real, display: Bounds): LegacyTouch
  {
    var a := Released(l.app);
    if l.flags.pendingDecision then LegacyReleaseDuringPending(a, l.flags)
    else LegacyReleaseDefault(a, l.flags, x, y, display)
  }

  /** The release velocity taken from the history, which is emptied. */
  function Released(a: App): (r: App)
    ensures r == a.(vx := r.vx, vy := r.vy, history := [])
    ensures (r.vx, r.vy) == CalcReleaseVelocity(a.history)
  {
    var v := CalcReleaseVelocity(a.history);
    a.(vx := v.0, vy := v.1, history := [])
  }

  /** Lifted before the decision: end the drag at the coast position. */
  function LegacyReleaseDuringPending(a: App, f: Flags): LegacyTouch
  {
    LegacyTouch(
      LegacyApp(a.(pendingMouseUp := NoEvent, isLeftButtonDown := false), f.(pendingDecision := false)),
      MouseUpOnlyAt(a.coastX, a.coastY, a.pendingMouseUp))
  }

  /** Any other release: start coasting, end a withheld drag, or nothing. */
  function LegacyReleaseDefault(a: App, f: Flags, x: real, y: real, display: Bounds): LegacyTouch
  {
    if a.isLeftButtonDown && (a.vx != 0.0 || a.vy != 0.0) then
      LegacyTouch(
        LegacyApp(CacheScreenBounds(a.(coastX := x, coastY := y, accumX := 0.0, accumY := 0.0), display),
                  f.(coasting := true, following := false)),
        NoTouchAction)
    else if a.pendingMouseUp != NoEvent then
      var t := LegacyResetCoasting(LegacyApp(a, f));
      LegacyTouch(t.state, NoTouchAction.(releaseX := x, releaseY := y, needDragEnd := true, pending := t.pending))
    else
      LegacyTouch(LegacyApp(a, f), NoTouchAction)
  }

  /** `prepareTouchFrame` of the flag revision. */
  function LegacyPrepareTouchFrame(l: LegacyApp, fingerCount: int, x: real, y: real, timestamp: real,
                                   display: Bounds): LegacyTouch
  {
    if fingerCount > 0 then
      var o := LegacyTouched(l, fingerCount, x, y, timestamp);
      LegacyTouch(LegacyApp(o.state.app.(vx := 0.0, vy := 0.0, isTouched := true), o.state.flags), o.action)
    else if l.app.isTouched then
      var o := LegacyReleased(l, x, y, display);
      LegacyTouch(LegacyApp(o.state.app.(isTouched := false), o.state.flags), o.action)
    else
      LegacyTouch(LegacyApp(l.app.(isTouched := false), l.flags), NoTouchAction)
  }

  /** A legacy outcome matches a phase-based one. */
  predicate Matches(r: LegacyTouch, p: TouchOutcome)
  {
    Exclusive(r.state.flags) && Lift(r.state) == p.app && r.action == p.action
  }

  /** With exclusive flags, the flag revision's touch frame is the phase
      revision's touch frame, and the flags stay exclusive. */
  lemma LegacyTouchFrameAgrees(l: LegacyApp, fingerCount: int, x: real, y: real, timestamp: real, display: Bounds)
    requires Exclusive(l.flags)
    ensures Matches(LegacyPrepareTouchFrame(l, fingerCount, x, y, timestamp, display),
                    PrepareTouchFrame(Lift(l), fingerCount, x, y, timestamp, display))
  {
    if fingerCount > 0 {
      LegacyTouchedAgrees(l, fingerCount, x, y, timestamp);
    } else if l.app.isTouched {
      LegacyReleasedAgrees(l, x, y, display);
    }
  }

  /** A drag held with several fingers is remembered as a multi-finger drag. */
  function MarkMultiFinger(a: App, fingerCount: int): (r: App)
    ensures r == a.(wasMultiFingerDrag := r.wasMultiFingerDrag)
    ensures r.wasMultiFingerDrag <==> a.wasMultiFingerDrag || (a.isLeftButtonDown && fingerCount > 1)
  {
    if a.isLeftButtonDown && fingerCount > 1 then a.(wasMultiFingerDrag := true) else a
  }

  lemma LegacyTouchedAgrees(l: LegacyApp, fingerCount: int, x: real, y: real, timestamp: real)
    requires Exclusive(l.flags) && fingerCount > 0
    ensures Matches(LegacyTouched(l, fingerCount, x, y, timestamp), HandleTouch(Lift(l), fingerCount, x, y, timestamp))
  {
    var a := MarkMultiFinger(l.app, fingerCount);
    TouchDispatches(l, fingerCount, x, y, timestamp);
    if l.flags.coasting {
      TouchDuringCoastAgrees(a, l.flags, fingerCount, x, y, timestamp);
    } else if l.flags.pendingDecision {
      TouchDuringPendingAgrees(a, l.flags, fingerCount, x, y, timestamp);
    } else {
      TouchDefaultAgrees(a, l.flags, fingerCount, x, y, timestamp);
    }
  }

  /** The phase revision dispatches on the phase the flags encode. */
  lemma TouchDispatches(l: LegacyApp, fingerCount: int, x: real, y: real, timestamp: real)
    requires Exclusive(l.flags)
    ensures var b := MarkMultiFinger(l.app, fingerCount).(phase := PhaseOf(l.flags));
      HandleTouch(Lift(l), fingerCount, x, y, timestamp)
        == if l.flags.coasting then HandleTouchDuringCoast(b, fingerCount, x, y, timestamp)
           else if l.flags.pendingDecision then HandleTouchDuringPending(b, fingerCount, x, y, timestamp)
           else HandleTouchDefault(b, fingerCount, x, y, timestamp)
  {
    assert MarkMultiFinger(Lift(l).(phase := l.app.phase), fingerCount).(phase := PhaseOf(l.flags))
        == MarkMultiFinger(l.app, fingerCount).(phase := PhaseOf(l.flags));
  }

  lemma TouchDuringCoastAgrees(a: App, f: Flags, fingerCount: int, x: real, y: real, timestamp: real)
    requires Exclusive(f) && f.coasting
    ensures Matches(LegacyTouchDuringCoast(a, f, fingerCount, x, y, timestamp),
                    HandleTouchDuringCoast(a.(phase := PhaseOf(f)), fingerCount, x, y, timestamp))
  {
  }

  lemma TouchDuringPendingAgrees(a: App, f: Flags, fingerCount: int, x: real, y: real, timestamp: real)
    requires Exclusive(f) && f.pendingDecision && fingerCount > 0
    ensures Matches(LegacyTouchDuringPending(a, f, fingerCount, x, y, timestamp),
                    HandleTouchDuringPending(a.(phase := PhaseOf(f)), fingerCount, x, y, timestamp))
  {
  }

  lemma TouchDefaultAgrees(a: App, f: Flags, fingerCount: int, x: real, y: real, timestamp: real)
    requires Exclusive(f) && !f.coasting && !f.pendingDecision
    ensures Matches(LegacyTouchDefault(a, f, fingerCount, x, y, timestamp),
                    HandleTouchDefault(a.(phase := PhaseOf(f)), fingerCount, x, y, timestamp))
  {
    if a.wasMultiFingerDrag && fingerCount == 1 && a.pendingMouseUp != NoEvent {
      DropToOneFingerAgrees(a, f, fingerCount, x, y, timestamp);
    } else if f.following && a.isTouched && |a.history| > 0 {
      FollowAgrees(a, f, fingerCount, x, y, timestamp);
    } else {
      PlainTouchAgrees(a, f, fingerCount, x, y, timestamp);
    }
  }

  lemma DropToOneFingerAgrees(a: App, f: Flags, fingerCount: int, x: real, y: real, timestamp: real)
    requires Exclusive(f) && !f.coasting && !f.pendingDecision
    requires a.wasMultiFingerDrag && fingerCount == 1 && a.pendingMouseUp != NoEvent
    ensures Matches(LegacyTouchDefault(a, f, fingerCount, x, y, timestamp),
                    HandleTouchDefault(a.(phase := PhaseOf(f)), fingerCount, x, y, timestamp))
  {
  }

  lemma PlainTouchAgrees(a: App, f: Flags, fingerCount: int, x: real, y: real, timestamp: real)
    requires Exclusive(f) && !f.coasting && !f.pendingDecision
    requires !(a.wasMultiFingerDrag && fingerCount == 1 && a.pendingMouseUp != NoEvent)
    requires !(f.following && a.isTouched && |a.history| > 0)
    ensures Matches(LegacyTouchDefault(a, f, fingerCount, x, y, timestamp),
                    HandleTouchDefault(a.(phase := PhaseOf(f)), fingerCount, x, y, timestamp))
  {
  }

  lemma FollowAgrees(a: App, f: Flags, fingerCount: int, x: real, y: real, timestamp: real)
    requires Exclusive(f) && !f.coasting && !f.pendingDecision
    requires !(a.wasMultiFingerDrag && fingerCount == 1 && a.pendingMouseUp != NoEvent)
    requires f.following && a.isTouched && |a.history| > 0
    ensures Matches(LegacyTouchDefault(a, f, fingerCount, x, y, timestamp),
                    HandleTouchDefault(a.(phase := PhaseOf(f)), fingerCount, x, y, timestamp))
  {
    var last := a.history[|a.history| - 1];
    ExtractIgnoresPhase(a, PhaseOf(f), x - last.x, y - last.y);
    assert LegacyTouchDefault(a, f, fingerCount, x, y, timestamp) == LegacyFollow(a, f, x, y, timestamp);
  }

  lemma LegacyReleasedAgrees(l: LegacyApp, x: real, y: real, display: Bounds)
    requires Exclusive(l.flags)
    ensures Matches(LegacyReleased(l, x, y, display), HandleRelease(Lift(l), x, y, display))
  {
    var a := Released(l.app);
    var b := a.(phase := PhaseOf(l.flags));
    var v := CalcReleaseVelocity(Lift(l).history);
    assert Lift(l).(vx := v.0, vy := v.1, history := []) == b;
    if l.flags.pendingDecision {
      assert HandleRelease(Lift(l), x, y, display) == ReleaseDuringPending(b);
      ReleaseDuringPendingAgrees(a, l.flags);
    } else {
      assert HandleRelease(Lift(l), x, y, display) == ReleaseDefault(b, x, y, display);
      ReleaseDefaultAgrees(a, l.flags, x, y, display);
    }
  }

  lemma ReleaseDuringPendingAgrees(a: App, f: Flags)
    requires Exclusive(f) && f.pendingDecision
    ensures Matches(LegacyReleaseDuringPending(a, f), ReleaseDuringPending(a.(phase := PhaseOf(f))))
  {
  }

  lemma ReleaseDefaultAgrees(a: App, f: Flags, x: real, y: real, display: Bounds)
    requires Exclusive(f) && !f.pendingDecision
    ensures Matches(LegacyReleaseDefault(a, f, x, y, display), ReleaseDefault(a.(phase := PhaseOf(f)), x, y, display))
  {
  }

  /** `prepareCoastFrame` of the flag revision. */
  function LegacyPrepareCoastFrame(l: LegacyApp, dt: real, factor: real): LegacyCoast
  {
    var a := l.app;
    if a.vx == 0.0 && a.vy == 0.0 then LegacyCoast(l, NoCoastAction)
    else
      var stepped :=
        if l.flags.coasting then
          var e := AdvanceDragCoast(a, dt);
          LegacyCoast(LegacyApp(e.app, l.flags), NoCoastAction.(
            dragDx := e.dx, dragDy := e.dy, dragX := e.app.coastX, dragY := e.app.coastY,
            isDragCoasting := true))
        else
          LegacyCoast(l, NoCoastAction.(moveDx := a.vx * dt, moveDy := a.vy * dt));
      var d := ApplyDecay(stepped.state.app, factor);
      if d.vx == 0.0 && d.vy == 0.0 then
        var act :=
          if l.flags.coasting then stepped.action.(dragX := d.coastX, dragY := d.coastY, coastEnded := true)
          else stepped.action;
        var t := LegacyResetCoasting(LegacyApp(d, l.flags));
        LegacyCoast(t.state, act.(pending := t.pending))
      else
        LegacyCoast(LegacyApp(d, l.flags), stepped.action)
  }

  predicate CoastAgrees(l: LegacyApp, dt: real, factor: real)
  {
    var r := LegacyPrepareCoastFrame(l, dt, factor);
    var p := PrepareCoastFrame(Lift(l), dt, factor);
    Exclusive(r.state.flags) && Lift(r.state) == p.app && r.action == p.action
  }

  /** With exclusive flags, the flag revision's coast frame is the phase
      revision's coast frame, and the flags stay exclusive. */
  lemma LegacyCoastFrameAgrees(l: LegacyApp, dt: real, factor: real)
    requires Exclusive(l.flags)
    ensures CoastAgrees(l, dt, factor)
  {
    if l.app.vx == 0.0 && l.app.vy == 0.0 {
    } else if l.flags.coasting {
      DragCoastAgrees(l, dt, factor);
    } else {
      PlainCoastAgrees(l, dt, factor);
    }
  }

  lemma DragCoastAgrees(l: LegacyApp, dt: real, factor: real)
    requires Exclusive(l.flags) && l.flags.coasting && !(l.app.vx == 0.0 && l.app.vy == 0.0)
    ensures CoastAgrees(l, dt, factor)
  {
    var e := AdvanceDragCoast(l.app, dt);
    AdvanceIgnoresPhase(l.app, Coasting, dt);
    DecayIgnoresPhase(e.app, Coasting, factor);
  }

  lemma AdvanceIgnoresPhase(a: App, p: DragPhase, dt: real)
    ensures AdvanceDragCoast(a.(phase := p), dt).app == AdvanceDragCoast(a, dt).app.(phase := p)
    ensures AdvanceDragCoast(a.(phase := p), dt).dx == AdvanceDragCoast(a, dt).dx
    ensures AdvanceDragCoast(a.(phase := p), dt).dy == AdvanceDragCoast(a, dt).dy
  {
    AdvancedIgnoresPhase(a, p, dt);
    AdvanceUnfolds(a, dt);
    AdvanceUnfolds(a.(phase := p), dt);
  }

  lemma AdvancedIgnoresPhase(a: App, p: DragPhase, dt: real)
    ensures Advanced(a.(phase := p), dt).app == Advanced(a, dt).app.(phase := p)
    ensures Advanced(a.(phase := p), dt).dx == Advanced(a, dt).dx
    ensures Advanced(a.(phase := p), dt).dy == Advanced(a, dt).dy
  {
    ClampedIgnoresPhase(a, p, dt);
    var c := Clamped(a, dt);
    ExtractIgnoresPhase(c, p, c.coastX - a.coastX, c.coastY - a.coastY);
  }

  /** The coast point advanced by one frame and clamped, axis by axis. */
  function Clamped(a: App, dt: real): App
  {
    var x := ClampAxis(a.coastX + a.vx * dt, a.vx, a.screen.minX, a.screen.maxX);
    var y := ClampAxis(a.coastY + a.vy * dt, a.vy, a.screen.minY, a.screen.maxY);
    a.(coastX := x.0, vx := x.1, coastY := y.0, vy := y.1)
  }

  /** The clamped, extracted step `AdvanceDragCoast` takes. */
  function Advanced(a: App, dt: real): Extracted
  {
    var c := Clamped(a, dt);
    ExtractIntegerDelta(c, c.coastX - a.coastX, c.coastY - a.coastY)
  }

  lemma ClampedIgnoresPhase(a: App, p: DragPhase, dt: real)
    ensures Clamped(a.(phase := p), dt) == Clamped(a, dt).(phase := p)
  {
  }

  /** `Clamped` is `ClampToScreen` of the advanced point. */
  lemma ClampedIsClamp(a: App, dt: real)
    ensures Clamped(a, dt) == ClampToScreen(a.(coastX := a.coastX + a.vx * dt, coastY := a.coastY + a.vy * dt))
  {
    var m := a.(coastX := a.coastX + a.vx * dt, coastY := a.coastY + a.vy * dt);
    var x := ClampAxis(m.coastX, m.vx, m.screen.minX, m.screen.maxX);
    var y := ClampAxis(m.coastY, m.vy, m.screen.minY, m.screen.maxY);
    assert Clamped(a, dt) == m.(coastX := x.0, vx := x.1, coastY := y.0, vy := y.1);
    ClampUnfolds(m);
  }

  lemma ClampUnfolds(m: App)
    ensures var x := ClampAxis(m.coastX, m.vx, m.screen.minX, m.screen.maxX);
            var y := ClampAxis(m.coastY, m.vy, m.screen.minY, m.screen.maxY);
            ClampToScreen(m) == m.(coastX := x.0, vx := x.1, coastY := y.0, vy := y.1)
  {
  }

  lemma AdvanceUnfolds(a: App, dt: real)
    ensures AdvanceDragCoast(a, dt).app == Advanced(a, dt).app
    ensures AdvanceDragCoast(a, dt).dx == Advanced(a, dt).dx
    ensures AdvanceDragCoast(a, dt).dy == Advanced(a, dt).dy
  {
    ClampedIsClamp(a, dt);
  }

  lemma PlainCoastAgrees(l: LegacyApp, dt: real, factor: real)
    requires Exclusive(l.flags) && !l.flags.coasting && !(l.app.vx == 0.0 && l.app.vy == 0.0)
    ensures CoastAgrees(l, dt, factor)
  {
    if Still(ApplyDecay(l.app, factor)) {
      PlainCoastStopsAgrees(l, dt, factor);
    } else {
      PlainCoastContinuesAgrees(l, dt, factor);
    }
  }

  /** A plain coast frame whose decay stops the coast. */
  lemma PlainCoastStopsAgrees(l: LegacyApp, dt: real, factor: real)
    requires Exclusive(l.flags) && !l.flags.coasting && !(l.app.vx == 0.0 && l.app.vy == 0.0)
    requires Still(ApplyDecay(l.app, factor))
    ensures CoastAgrees(l, dt, factor)
  {
    DecayIgnoresPhase(l.app, PhaseOf(l.flags), factor);
    var d := ApplyDecay(l.app, factor);
    var act := NoCoastAction.(moveDx := l.app.vx * dt, moveDy := l.app.vy * dt);
    var t := LegacyResetCoasting(LegacyApp(d, l.flags));
    assert LegacyPrepareCoastFrame(l, dt, factor) == LegacyCoast(t.state, act.(pending := t.pending));
    assert PrepareCoastFrame(Lift(l), dt, factor)
        == CoastOutcome(ResetCoasting(Lift(LegacyApp(d, l.flags))).app, act.(pending := t.pending));
  }

  /** A plain coast frame after which the coast goes on. */
  lemma PlainCoastContinuesAgrees(l: LegacyApp, dt: real, factor: real)
    requires Exclusive(l.flags) && !l.flags.coasting && !(l.app.vx == 0.0 && l.app.vy == 0.0)
    requires !Still(ApplyDecay(l.app, factor))
    ensures CoastAgrees(l, dt, factor)
  {
    DecayIgnoresPhase(l.app, PhaseOf(l.flags), factor);
    var d := ApplyDecay(l.app, factor);
    var act := NoCoastAction.(moveDx := l.app.vx * dt, moveDy := l.app.vy * dt);
    assert LegacyPrepareCoastFrame(l, dt, factor) == LegacyCoast(LegacyApp(d, l.flags), act);
    assert PrepareCoastFrame(Lift(l), dt, factor) == CoastOutcome(Lift(LegacyApp(d, l.flags)), act);
  }

  /** The physics helpers neither read nor write the phase. */
  lemma ExtractIgnoresPhase(a: App, p: DragPhase, dx: real, dy: real)
    ensures ExtractIntegerDelta(a.(phase := p), dx, dy).app == ExtractIntegerDelta(a, dx, dy).app.(phase := p)
    ensures ExtractIntegerDelta(a.(phase := p), dx, dy).dx == ExtractIntegerDelta(a, dx, dy).dx
    ensures ExtractIntegerDelta(a.(phase := p), dx, dy).dy == ExtractIntegerDelta(a, dx, dy).dy
  {
  }

  lemma DecayIgnoresPhase(a: App, p: DragPhase, factor: real)
    ensures ApplyDecay(a.(phase := p), factor) == ApplyDecay(a, factor).(phase := p)
  {
  }

  /** `onMouseDown` of the flag revision. */
  function LegacyOnMouseDown(l: LegacyApp): LegacyStepped
  {
    var a := l.app;
    if l.flags.coasting then
      var t := LegacyResetCoasting(l);
      LegacyStepped(LegacyApp(t.state.app.(isLeftButtonDown := true), t.state.flags),
                    ReleasePendingMouseUp(t.pending))
    else if a.pendingMouseUp != NoEvent then
      LegacyStepped(
        LegacyApp(a.(pendingMouseUp := NoEvent, wasMultiFingerDrag := false, accumX := 0.0, accumY := 0.0,
                     isLeftButtonDown := true),
                  l.flags.(following := false, pendingDecision := false)),
        [DiscardEvent(a.pendingMouseUp)])
    else
      LegacyStepped(LegacyApp(a.(isLeftButtonDown := true), l.flags), ReleasePendingMouseUp(NoEvent))
  }

  lemma LegacyMouseDownAgrees(l: LegacyApp)
    requires Exclusive(l.flags)
    ensures var r := LegacyOnMouseDown(l);
      var p := OnMouseDown(Lift(l));
      && Exclusive(r.state.flags) && Lift(r.state) == p.app && r.effects == p.effects
  {
  }

  /** `handleMouseUp` of the flag revision. */
  function LegacyHandleMouseUp(l: LegacyApp, event: Handle): LegacyMouseUp
  {
    var a := l.app;
    if l.flags.coasting || (a.isLeftButtonDown && a.isTouched) then
      LegacyMouseUp(LegacyApp(a.(pendingMouseUp := event), l.flags), true, Withhold(event, a.pendingMouseUp))
    else
      LegacyMouseUp(LegacyApp(a.(isLeftButtonDown := false), l.flags), false, [])
  }

  lemma LegacyMouseUpAgrees(l: LegacyApp, event: Handle)
    requires Exclusive(l.flags)
    ensures var r := LegacyHandleMouseUp(l, event);
      var p := HandleMouseUp(Lift(l), event);
      && Exclusive(r.state.flags) && Lift(r.state) == p.app
      && r.suppressed == p.suppressed && r.effects == p.effects
  {
  }
}

=== FILE: multitouch.dfy ===
/** The multitouch callback (multitouch.go): count the fingers in contact
    and hand the count to the running app. */
module Multitouch {
  import opened AppState
  import opened Drag
  import opened Touch

  /** One contact record of a frame; only its state matters here. */
  datatype Finger = Finger(state: int)

  /** The contact state meaning "touching"; hover (3) and lift (5) do
      not count. */
  const TouchStateTouching: int := 4

  function States(fingers: seq<Finger>): (s: seq<int>)
    ensures |s| == |fingers|
    ensures forall i :: 0 <= i < |fingers| ==> s[i] == fingers[i].state
  {
    seq(|fingers|, i requires 0 <= i < |fingers| => fingers[i].state)
  }

  /** The reference count: how many contacts carry the touching state. */
  function Touching(fingers: seq<Finger>): nat
  {
    multiset(States(fingers))[TouchStateTouching]
  }

  /** `countActiveFingers`: one pass over the frame's contacts. */
  method CountActiveFingers(fingers: seq<Finger>) returns (n: nat)
    ensures n == Touching(fingers)
    ensures n <= |fingers|
    ensures n == 0 <==> forall i :: 0 <= i < |fingers| ==> fingers[i].state != TouchStateTouching
  {
    n := 0;
    var i := 0;
    while i < |fingers|
      invariant 0 <= i <= |fingers|
      invariant n == multiset(States(fingers[..i]))[TouchStateTouching]
      invariant n <= i
    {
      assert States(fingers[..i + 1]) == States(fingers[..i]) + [fingers[i].state];
      if fingers[i].state == TouchStateTouching {
        n := n + 1;
      }
      i := i + 1;
    }
    assert fingers[..i] == fingers;
    assert n == 0 <==> TouchStateTouching !in States(fingers);
  }

  /** The process-wide app, which is nil until it has been created. */
  datatype Registered = NoApp | Running(app: App)

  /** What the callback does with one frame: drop it, or hand it to the app. */
  datatype Callback = Dropped | Handled(stepped: Stepped)

  /** `goTouchCallback`: a frame arriving before the app exists is
      dropped; otherwise the active-finger count drives `onTouchFrame`,
      so the frame is touched exactly when some contact is touching. */
  method GoTouchCallback(registered: Registered, fingers: seq<Finger>, timestamp: real,
                         cursor: CursorQuery, display: Bounds)
    returns (r: Callback)
    ensures r.Handled? <==> registered.Running?
    ensures r.Handled? ==>
      r.stepped == OnTouchFrame(registered.app, Touching(fingers), timestamp, cursor, display)
    ensures r.Handled? && cursor.At? ==>
      (r.stepped.app.isTouched <==> exists i :: 0 <= i < |fingers| && fingers[i].state == TouchStateTouching)
  {
    if registered.NoApp? {
      return Dropped;
    }
    var n := CountActiveFingers(fingers);
    r := Handled(OnTouchFrame(registered.app, n, timestamp, cursor, display));
  }
}

=== FILE: numeric.dfy ===
/** Real-number helpers standing in for Go's float64 operations. */
module Numeric {

  /** math.Abs on a float64. */
  function Abs(r: real): (m: real)
    ensures 0.0 <= m
    ensures m == r || m == -r
  {
    if r < 0.0 then -r else r
  }

  /** Go's `int(f)` conversion of a float64: truncation toward zero.
      The contract pins the result down uniquely: the integer within
      distance one of `r` that does not overshoot it away from zero. */
  function Trunc(r: real): (i: int)
    ensures Abs(r - i as real) < 1.0
    ensures 0.0 <= r ==> 0 <= i && i as real <= r
    ensures r <= 0.0 ==> i <= 0 && r <= i as real
  {
    if 0.0 <= r then r.Floor else -((-r).Floor)
  }

  /** Squared Euclidean length; comparing it with a squared threshold
      replaces `math.Sqrt(x*x + y*y) < t` for non-negative `t`. */
  function MagnitudeSq(x: real, y: real): real
  {
    x * x + y * y
  }
}

=== FILE: physics.dfy ===
/** Coast physics (coast.go): the fractional-pixel accumulator, the
    exponential decay with its hard stop, and clamping to the cached
    screen box. */
module Physics {
  import opened Numeric
  import opened AppState

  /** The integer part handed to a drag event and the remainder kept. */
  datatype Split = Split(whole: int, rest: real)

  /** One axis of `extractIntegerDelta`: add the delta to the
      accumulator, emit its truncation toward zero, keep the rest. */
  function ExtractAxis(accum: real, delta: real): (s: Split)
    ensures s.whole as real + s.rest == accum + delta
    ensures -1.0 < s.rest < 1.0
    ensures s.rest == 0.0 || (0.0 < s.rest <==> 0.0 < accum + delta)
    ensures Abs(s.whole as real) <= Abs(accum + delta)
  {
    var sum := accum + delta;
    var i := Trunc(sum);
    Split(i, sum - i as real)
  }

  datatype Extracted = Extracted(app: App, dx: int, dy: int)

  /** `extractIntegerDelta`: both axes through the accumulator; only the
      accumulator changes. */
  function ExtractIntegerDelta(a: App, dx: real, dy: real): (r: Extracted)
    ensures r.app == a.(accumX := r.app.accumX, accumY := r.app.accumY)
    ensures r.dx as real + r.app.accumX == a.accumX + dx
    ensures r.dy as real + r.app.accumY == a.accumY + dy
    ensures -1.0 < r.app.accumX < 1.0 && -1.0 < r.app.accumY < 1.0
    // The whole pixels are the truncation toward zero: the remainder
    // keeps the sign of the sum.
    ensures r.app.accumX == 0.0 || (0.0 < r.app.accumX <==> 0.0 < a.accumX + dx)
    ensures r.app.accumY == 0.0 || (0.0 < r.app.accumY <==> 0.0 < a.accumY + dy)
  {
    var sx := ExtractAxis(a.accumX, dx);
    var sy := ExtractAxis(a.accumY, dy);
    Extracted(a.(accumX := sx.rest, accumY := sy.rest), sx.whole, sy.whole)
  }

  function Sum(ds: seq<real>): real
    decreases |ds|
  {
    if |ds| == 0 then 0.0 else ds[0] + Sum(ds[1..])
  }

  /** Repeated extraction over a stream of per-frame deltas on one axis:
      the total emitted in whole pixels and the final remainder. Nothing
      is lost: emitted plus remainder is the starting remainder plus the
      true displacement. */
  function Emit(accum: real, deltas: seq<real>): (r: (int, real))
    ensures r.0 as real + r.1 == accum + Sum(deltas)
    decreases |deltas|
  {
    if |deltas| == 0 then (0, accum)
    else
      var s := ExtractAxis(accum, deltas[0]);
      var t := Emit(s.rest, deltas[1..]);
      (s.whole + t.0, t.1)
  }

  /** The remainder stays in (-1, 1) after any non-empty stream. */
  lemma {:induction false} EmitRemainderBounded(accum: real, deltas: seq<real>)
    requires |deltas| > 0
    ensures -1.0 < Emit(accum, deltas).1 < 1.0
    decreases |deltas|
  {
    var s := ExtractAxis(accum, deltas[0]);
    if |deltas| > 1 {
      EmitRemainderBounded(s.rest, deltas[1..]);
    }
  }

  /** The whole pixels sent to the window server track the true
      cumulative displacement to within one pixel after every frame. */
  lemma EmitTracksDisplacement(accum: real, deltas: seq<real>)
    requires -1.0 < accum < 1.0
    ensures Abs(Emit(accum, deltas).0 as real - Sum(deltas)) < 2.0
    ensures |deltas| > 0 ==> Abs(Emit(accum, deltas).0 as real - (accum + Sum(deltas))) < 1.0
  {
    if |deltas| > 0 {
      EmitRemainderBounded(accum, deltas);
    }
  }

  /** `applyDecay`: scale both components by `factor` (standing for
      `exp(-DecayRate * dt)`) and snap to zero when the scaled speed is
      below `StopThreshold`. Only the velocity changes. */
  function ApplyDecay(a: App, factor: real): (r: App)
    ensures r == a.(vx := r.vx, vy := r.vy)
    ensures Still(r) <==> MagnitudeSq(a.vx * factor, a.vy * factor) < StopThreshold * StopThreshold
    ensures !Still(r) ==> r.vx == a.vx * factor && r.vy == a.vy * factor
    ensures Still(r) || MagnitudeSq(r.vx, r.vy) >= StopThreshold * StopThreshold
  {
    var vx := a.vx * factor;
    var vy := a.vy * factor;
    if MagnitudeSq(vx, vy) < StopThreshold * StopThreshold then a.(vx := 0.0, vy := 0.0)
    else a.(vx := vx, vy := vy)
  }

  /** With a factor in (0, 1), as `exp` gives for a positive `dt`, a
      decay step never speeds an axis up, strictly slows every moving
      axis, and never reverses a direction. */
  lemma DecayShrinksSpeed(a: App, factor: real)
    requires 0.0 < factor < 1.0
    ensures var r := ApplyDecay(a, factor);
      && Abs(r.vx) <= Abs(a.vx) && Abs(r.vy) <= Abs(a.vy)
      && (a.vx != 0.0 ==> Abs(r.vx) < Abs(a.vx))
      && (a.vy != 0.0 ==> Abs(r.vy) < Abs(a.vy))
      && (r.vx == 0.0 || (0.0 < r.vx <==> 0.0 < a.vx))
      && (r.vy == 0.0 || (0.0 < r.vy <==> 0.0 < a.vy))
  {
    var r := ApplyDecay(a, factor);
    ScaleShrinks(a.vx, factor);
    ScaleShrinks(a.vy, factor);
    if Still(r) {
      assert r.vx == 0.0 && r.vy == 0.0;
    } else {
      assert r.vx == a.vx * factor && r.vy == a.vy * factor;
    }
  }

  lemma ScaleShrinks(v: real, f: real)
    requires 0.0 < f < 1.0
    ensures Abs(v * f) <= Abs(v)
    ensures v != 0.0 ==> Abs(v * f) < Abs(v)
    ensures v * f == 0.0 || (0.0 < v * f <==> 0.0 < v)
  {
    if v > 0.0 {
      assert v * f < v;
      assert v * f > 0.0;
    } else if v < 0.0 {
      assert v * f > v;
      assert v * f < 0.0;
    } else {
      assert v * f == 0.0;
    }
  }

  predicate InBounds(a: App)
  {
    && a.screen.minX <= a.coastX <= a.screen.maxX
    && a.screen.minY <= a.coastY <= a.screen.maxY
  }

  /** `clampToScreen`: each axis of the coast position is clamped to the
      cached box independently, and an axis that was clamped loses its
      velocity. Only position and velocity change. */
  function ClampToScreen(a: App): (r: App)
    ensures r == a.(coastX := r.coastX, coastY := r.coastY, vx := r.vx, vy := r.vy)
    ensures a.screen.minX <= a.screen.maxX ==> a.screen.minX <= r.coastX <= a.screen.maxX
    ensures a.screen.minY <= a.screen.maxY ==> a.screen.minY <= r.coastY <= a.screen.maxY
    ensures r.coastX == a.coastX || r.coastX == a.screen.minX || r.coastX == a.screen.maxX
    ensures r.coastY == a.coastY || r.coastY == a.screen.minY || r.coastY == a.screen.maxY
    ensures r.vx == (if r.coastX == a.coastX then a.vx else 0.0)
    ensures r.vy == (if r.coastY == a.coastY then a.vy else 0.0)
    ensures a.screen.minX <= a.coastX <= a.screen.maxX ==> r.coastX == a.coastX && r.vx == a.vx
    ensures a.screen.minY <= a.coastY <= a.screen.maxY ==> r.coastY == a.coastY && r.vy == a.vy
    ensures InBounds(a) ==> r == a
  {
    var x := ClampAxis(a.coastX, a.vx, a.screen.minX, a.screen.maxX);
    var y := ClampAxis(a.coastY, a.vy, a.screen.minY, a.screen.maxY);
    a.(coastX := x.0, vx := x.1, coastY := y.0, vy := y.1)
  }

  /** One axis of the clamp: below the minimum or above the maximum the
      position snaps to that bound and the speed along the axis is zeroed. */
  function ClampAxis(pos: real, speed: real, lo: real, hi: real): (real, real)
  {
    if pos < lo then (lo, 0.0)
    else if pos > hi then (hi, 0.0)
    else (pos, speed)
  }

  /** Clamping twice is clamping once: the first clamp lands in the box. */
  lemma ClampIdempotent(a: App)
    requires a.screen.minX <= a.screen.maxX && a.screen.minY <= a.screen.maxY
    ensures ClampToScreen(ClampToScreen(a)) == ClampToScreen(a)
  {
  }

  /** `cacheScreenBounds`: keep the minimum corner and pull the outer
      edges in by one pixel. Only the cached box changes. */
  function CacheScreenBounds(a: App, display: Bounds): (r: App)
    ensures r == a.(screen := r.screen)
    ensures r.screen.minX == display.minX && r.screen.minY == display.minY
    ensures r.screen.maxX + 1.0 == display.maxX && r.screen.maxY + 1.0 == display.maxY
  {
    a.(screen := Bounds(display.minX, display.minY, display.maxX - 1.0, display.maxY - 1.0))
  }

  /** The coast never reaches a display's outer edge: once the box is
      cached from a display of positive size, the clamped coast point
      lies on the display, strictly before its maximum edge, on both axes. */
  lemma CachedClampStaysOnDisplay(a: App, display: Bounds)
    requires display.minX + 1.0 <= display.maxX && display.minY + 1.0 <= display.maxY
    ensures var r := ClampToScreen(CacheScreenBounds(a, display));
      && display.minX <= r.coastX < display.maxX
      && display.minY <= r.coastY < display.maxY
  {
  }
}

=== FILE: scenarios.dfy ===
/** Worked sessions with concrete numbers, each following the handlers
    step by step. */
module Scenarios {
  import opened AppState
  import opened Effects
  import opened Velocity
  import opened Drag
  import opened Coast
  import opened Touch
  import opened Session
  import opened Numeric
  import Physics

  const Display := Bounds(0.0, 0.0, 1920.0, 1080.0)

  /** A finger that rests in place before lifting gives no velocity, so
      the release starts no coast and the next tick does nothing. */
  lemma RestingReleaseDoesNotCoast()
    ensures var a := NewApp().(isTouched := true,
                               history := [CursorRecord(100.0, 100.0, 0.0), CursorRecord(100.0, 100.0, 0.01)]);
      var r := Step(a, Frame(0, 0.02, At(100.0, 100.0), Display));
      && Still(r.app) && r.app.phase == None && r.effects == []
      && Step(r.app, Tick(0.016, 0.923)) == Stepped(r.app, [])
  {
    StationaryReleaseHasNoVelocity([CursorRecord(100.0, 100.0, 0.0), CursorRecord(100.0, 100.0, 0.01)]);
  }

  /** Samples 50 px apart 50 ms apart give 1000 px/s; one 16 ms tick
      then moves the cursor 16 px and scales the speed by the decay
      factor. */
  lemma FlickCoastsSixteenPixels(factor: real)
    requires 0.01 <= factor < 1.0
    ensures var a := NewApp().(isTouched := true,
                               history := [CursorRecord(0.0, 0.0, 0.0), CursorRecord(50.0, 0.0, 0.05)]);
      var r := Step(a, Frame(0, 0.06, At(50.0, 0.0), Display));
      var t := Step(r.app, Tick(0.016, factor));
      && r.app.vx == 1000.0 && r.app.vy == 0.0 && r.app.phase == None
      && t.effects == [MoveMouse(16.0, 0.0)]
      && t.app.vx == 1000.0 * factor && t.app.vy == 0.0
  {
    var v := CalcReleaseVelocity([CursorRecord(0.0, 0.0, 0.0), CursorRecord(50.0, 0.0, 0.05)]);
    assert v.0 * 0.05 == 50.0;
    assert v == (1000.0, 0.0);
  }

  /** The decay factor of one 16 ms tick: `exp(-DecayRate * 0.016)`,
      that is `exp(-0.08)`, about 0.9231, lies in this interval. */
  predicate TickFactor(factor: real)
  {
    0.92 <= factor <= 0.93
  }

  /** A drag released at 500 px/s starts a drag coast; the button-up that
      follows is withheld; the first 16 ms tick posts an 8 px drag event
      and, the speed still far above the threshold, keeps the event
      withheld. */
  lemma DragCoastKeepsWithholding(factor: real)
    requires TickFactor(factor)
    ensures var r1 := Step(HeldDrag(), Frame(0, 0.02, At(105.0, 100.0), Display));
      var r2 := Step(r1.app, LeftMouseUp(7));
      var r3 := Step(r2.app, Tick(0.016, factor));
      && r1.app.phase == Coasting && r1.effects == []
      && r2.effects == [RetainEvent(7)] && r2.app.pendingMouseUp == 7
      && r3.effects == [PosterDrag(113.0, 100.0, 8, 0)]
      && r3.app.pendingMouseUp == 7 && r3.app.phase == Coasting && r3.app.vx == 500.0 * factor
  {
    DragReleaseCoasts();
    CoastWithholdsMouseUp();
    FirstTickKeepsWithholding(factor);
  }

  /** A button held by a finger that moved 5 px in 10 ms. */
  function HeldDrag(): App
  {
    NewApp().(isTouched := true, isLeftButtonDown := true,
              history := [CursorRecord(100.0, 100.0, 0.0), CursorRecord(105.0, 100.0, 0.01)])
  }

  /** The drag coast that release starts, at 500 px/s from the lift point. */
  function DragCoast(): App
  {
    NewApp().(isLeftButtonDown := true, vx := 500.0, phase := Coasting,
              coastX := 105.0, coastY := 100.0, screen := Bounds(0.0, 0.0, 1919.0, 1079.0))
  }

  lemma DragReleaseCoasts()
    ensures Step(HeldDrag(), Frame(0, 0.02, At(105.0, 100.0), Display)) == Stepped(DragCoast(), [])
  {
    var v := CalcReleaseVelocity(HeldDrag().history);
    assert v.0 * 0.01 == 5.0;
    assert v == (500.0, 0.0);
    assert ReleasePendingMouseUp(NoEvent) == [];
  }

  lemma CoastWithholdsMouseUp()
    ensures var r := Step(DragCoast(), LeftMouseUp(7));
      r.effects == [RetainEvent(7)] && r.app == DragCoast().(pendingMouseUp := 7)
  {
  }

  lemma FirstTickKeepsWithholding(factor: real)
    requires TickFactor(factor)
    ensures var r := Step(DragCoast().(pendingMouseUp := 7), Tick(0.016, factor));
      && r.effects == [PosterDrag(113.0, 100.0, 8, 0)]
      && r.app.pendingMouseUp == 7 && r.app.phase == Coasting && r.app.vx == 500.0 * factor
  {
    var coasting := DragCoast().(pendingMouseUp := 7);
    assert Physics.ExtractAxis(0.0, 8.0) == Physics.Split(8, 0.0);
    assert Physics.ExtractAxis(0.0, 0.0) == Physics.Split(0, 0.0);
    var e := AdvanceDragCoast(coasting, 0.016);
    assert e.dx == 8 && e.dy == 0 && e.app == coasting.(coastX := 113.0);
    assert Physics.ApplyDecay(e.app, factor) == e.app.(vx := 500.0 * factor);
  }

  /** A drag coast that has slowed to 10.5 px/s, with its mouse-up held. */
  function SlowDragCoast(): App
  {
    DragCoast().(vx := 10.5, coastX := 200.0, pendingMouseUp := 7)
  }

  /** The tick that brings the speed under 10 px/s moves the point a
      fraction of a pixel, posts a drag event with no whole-pixel delta
      and ends the session with the withheld event at that point. */
  lemma SlowCoastEndsDrag(factor: real)
    requires TickFactor(factor)
    ensures var r := Step(SlowDragCoast(), Tick(0.016, factor));
      && r.effects == [PosterDrag(200.168, 100.0, 0, 0), EndDragSession(7, 200.168, 100.0)]
      && r.app.pendingMouseUp == NoEvent && r.app.phase == None && Still(r.app)
  {
    var a := SlowDragCoast();
    assert Physics.ExtractAxis(0.0, 0.168) == Physics.Split(0, 0.168);
    assert Physics.ExtractAxis(0.0, 0.0) == Physics.Split(0, 0.0);
    var e := AdvanceDragCoast(a, 0.016);
    assert e.dx == 0 && e.dy == 0 && e.app == a.(coastX := 200.168, accumX := 0.168);
    var v := 10.5 * factor;
    assert 0.0 <= v <= 9.765;
    assert v * v <= 9.765 * v <= 9.765 * 9.765 < 100.0;
    assert MagnitudeSq(v, 0.0 * factor) < StopThreshold * StopThreshold;
    assert Physics.ApplyDecay(e.app, factor) == e.app.(vx := 0.0);
  }

  /** A one-finger re-touch during a drag coast waits; moving 5 px ends
      the drag with the withheld mouse-up at the coast origin. */
  lemma PendingMoveEndsAtCoastOrigin()
    ensures var a := NewApp().(phase := Coasting, coastX := 100.0, coastY := 100.0, vx := 300.0,
                               isLeftButtonDown := true, pendingMouseUp := 7);
      var r1 := Step(a, Frame(1, 1.0, At(100.0, 100.0), Display));
      var r2 := Step(r1.app, Frame(1, 1.016, At(105.0, 100.0), Display));
      && r1.app.phase == PendingDecision && r1.effects == [] && Still(r1.app)
      && r2.effects == [PostMouseUpAt(7, 100.0, 100.0)]
      && r2.app.pendingMouseUp == NoEvent && r2.app.phase == None
  {
  }

  /** A drag coast 4 px short of the right edge of a 1920 x 1080 display. */
  function NearRightEdge(): App
  {
    NewApp().(phase := Coasting, coastX := 1915.0, coastY := 500.0,
              vx := 1000.0, vy := 200.0, isLeftButtonDown := true,
              screen := Bounds(0.0, 0.0, 1919.0, 1079.0))
  }

  /** At the right edge of a 1920 px display the coast stops at column
      1919: the horizontal speed is zeroed while the vertical keeps
      decaying. */
  lemma RightEdgeStopsHorizontalOnly(factor: real)
    requires TickFactor(factor)
    ensures var r := Step(NearRightEdge(), Tick(0.016, factor));
      && r.app.coastX == 1919.0 && r.app.vx == 0.0
      && r.app.vy == 200.0 * factor && r.app.phase == Coasting
      && r.effects == [PosterDrag(1919.0, 503.2, 4, 3)]
  {
    RightEdgeFrame(factor);
    RightEdgeEffects();
  }

  lemma RightEdgeEffects()
    ensures ExecuteCoastFrame(NoCoastAction.(dragX := 1919.0, dragY := 503.2, dragDx := 4, dragDy := 3,
                                             isDragCoasting := true))
         == [PosterDrag(1919.0, 503.2, 4, 3)]
  {
    assert ReleasePendingMouseUp(NoEvent) == [];
    assert [PosterDrag(1919.0, 503.2, 4, 3)] + [] + [] == [PosterDrag(1919.0, 503.2, 4, 3)];
  }

  lemma RightEdgeFrame(factor: real)
    requires TickFactor(factor)
    ensures PrepareCoastFrame(NearRightEdge(), 0.016, factor) == CoastOutcome(
      NearRightEdge().(coastX := 1919.0, vx := 0.0, coastY := 503.2, accumY := 0.2, vy := 200.0 * factor),
      NoCoastAction.(dragX := 1919.0, dragY := 503.2, dragDx := 4, dragDy := 3, isDragCoasting := true))
  {
    var e := AdvanceDragCoast(NearRightEdge(), 0.016);
    RightEdgeAdvance();
    assert Physics.ApplyDecay(e.app, factor) == e.app.(vy := 200.0 * factor);
  }

  lemma RightEdgeAdvance()
    ensures AdvanceDragCoast(NearRightEdge(), 0.016)
         == Physics.Extracted(NearRightEdge().(coastX := 1919.0, vx := 0.0, coastY := 503.2, accumY := 0.2), 4, 3)
  {
    var a := NearRightEdge();
    var c := Physics.ClampToScreen(a.(coastX := 1931.0, coastY := 503.2));
    assert c == a.(coastX := 1919.0, vx := 0.0, coastY := 503.2);
    assert Physics.ExtractAxis(0.0, 4.0) == Physics.Split(4, 0.0);
    assert Physics.ExtractAxis(0.0, 3.2) == Physics.Split(3, 0.2);
  }
}

=== FILE: session.dfy ===
/** The app's lifecycle (app.go): the coast loop, stopping, and the whole
    session as a sequence of inputs from the touch callback, the event
    tap and the ticker. The session's central promise is about the
    withheld mouse-up events: each one the app keeps is disposed of
    exactly once. */
module Session {
  import opened AppState
  import opened Effects
  import opened Drag
  import opened Coast
  import opened Touch

  /** The handle a transition from `before` to `after` hands over for
      disposal: the one that left the state, if any. */
  function Handed(before: Handle, after: Handle): Handle
  {
    if after == NoEvent then before else NoEvent
  }

  /** A transition that keeps the held mouse-up or clears it, and whose
      effects dispose of exactly the handle it gave up. */
  ghost predicate KeepsOrDisposes(before: Handle, after: Handle, es: seq<Effect>)
  {
    (after == before || after == NoEvent) && DisposesOnly(es, Handed(before, after))
  }

  /** Two such transitions in a row make one. */
  lemma KeepsOrDisposesChain(p0: Handle, p1: Handle, p2: Handle, s: seq<Effect>, t: seq<Effect>)
    requires KeepsOrDisposes(p0, p1, s) && KeepsOrDisposes(p1, p2, t)
    ensures KeepsOrDisposes(p0, p2, s + t)
  {
    CountsAppend(s, t);
  }

  /** One tick of the coast loop: prepare, then execute. */
  function Tick(a: App, dt: real, factor: real): (r: Stepped)
    ensures KeepsOrDisposes(a.pendingMouseUp, r.app.pendingMouseUp, r.effects)
    ensures Still(a) ==> r == Stepped(a, [])
    ensures r.app.isTouched == a.isTouched && r.app.stopped == a.stopped
  {
    var o := PrepareCoastFrame(a, dt, factor);
    Stepped(o.app, ExecuteCoastFrame(o.action))
  }

  /** `Run`: on each tick, `dt` is the time since the previous tick and
      the decay factor is `DecayFactor(exp, dt)`. An app already stopped
      is left alone; nothing inside the loop stops it, so a `Stop` that
      arrives mid-run is modelled by `Replay`. Otherwise the loop is the
      replay of one `Tick` input per tick, so the ledger theorems cover
      it. A still app is left alone, and the only handle the loop ever
      disposes of is the one it found held, at most once. */
  method Run(a: App, start: real, ticks: seq<real>, exp: real -> real)
    returns (r: App, trace: seq<Effect>)
    ensures KeepsOrDisposes(a.pendingMouseUp, r.pendingMouseUp, trace)
    ensures Still(a) || a.stopped ==> r == a && trace == []
    ensures r.isTouched == a.isTouched && r.history == a.history && r.stopped == a.stopped
    ensures !a.stopped ==> World(r, trace) == Replay(World(a, []), TickInputs(start, ticks, exp))
  {
    r, trace := a, [];
    var t1 := start;
    var i := 0;
    while i < |ticks| && !r.stopped
      invariant 0 <= i <= |ticks|
      invariant KeepsOrDisposes(a.pendingMouseUp, r.pendingMouseUp, trace)
      invariant Still(a) || a.stopped ==> r == a && trace == []
      invariant r.isTouched == a.isTouched && r.history == a.history && r.stopped == a.stopped
      invariant RunTicks(World(r, trace), t1, ticks[i..], exp) == RunTicks(World(a, []), start, ticks, exp)
    {
      var t2 := ticks[i];
      var dt := t2 - t1;
      var s := Tick(r, dt, DecayFactor(exp, dt));
      KeepsOrDisposesChain(a.pendingMouseUp, r.pendingMouseUp, s.app.pendingMouseUp, trace, s.effects);
      RunTicksAdvance(r, trace, t1, ticks, i, exp, dt, s);
      t1 := t2;
      r, trace := s.app, trace + s.effects;
      i := i + 1;
    }
    RunTicksReplays(World(a, []), start, ticks, exp);
  }

  /** `math.Exp(-decayRate * dt)`, with `exp` standing for `math.Exp`. */
  function DecayFactor(exp: real -> real, dt: real): real
  {
    exp(-DecayRate * dt)
  }

  /** The inputs the ticker feeds `Run`: each tick carries the time since
      the previous one (the first, the time since `prev`) and its decay
      factor. */
  function TickInputs(prev: real, ts: seq<real>, exp: real -> real): seq<Input>
    decreases |ts|
  {
    if |ts| == 0 then []
    else
      var dt := ts[0] - prev;
      [Input.Tick(dt, DecayFactor(exp, dt))] + TickInputs(ts[0], ts[1..], exp)
  }

  /** The ticks still to come run on world `w`; `prev` is the time of
      the tick before them. */
  function RunTicks(w: World, prev: real, ts: seq<real>, exp: real -> real): World
    decreases |ts|
  {
    if |ts| == 0 then w
    else
      var dt := ts[0] - prev;
      RunTicks(Apply(w, Input.Tick(dt, DecayFactor(exp, dt))), ts[0], ts[1..], exp)
  }

  /** One loop step of `Run`: the ticks still to come after running tick
      `i` are the rest of those that were to come before it. */
  lemma RunTicksAdvance(r: App, trace: seq<Effect>, prev: real, ticks: seq<real>, i: int, exp: real -> real,
                        dt: real, s: Stepped)
    requires 0 <= i < |ticks| && dt == ticks[i] - prev && s == Tick(r, dt, DecayFactor(exp, dt))
    ensures RunTicks(World(s.app, trace + s.effects), ticks[i], ticks[i + 1..], exp)
         == RunTicks(World(r, trace), prev, ticks[i..], exp)
  {
    assert ticks[i..][0] == ticks[i] && ticks[i..][1..] == ticks[i + 1..];
    RunTicksCons(World(r, trace), prev, ticks[i..], exp, dt);
    ApplyTick(r, trace, dt, DecayFactor(exp, dt), s);
  }

  /** The first of the ticks to come is one tick input after `prev`. */
  lemma RunTicksCons(w: World, prev: real, ts: seq<real>, exp: real -> real, dt: real)
    requires |ts| > 0 && dt == ts[0] - prev
    ensures RunTicks(w, prev, ts, exp)
         == RunTicks(Apply(w, Input.Tick(dt, DecayFactor(exp, dt))), ts[0], ts[1..], exp)
  {
  }

  /** Running the ticks is replaying their tick inputs. */
  lemma {:induction false} RunTicksReplays(w: World, prev: real, ts: seq<real>, exp: real -> real)
    ensures RunTicks(w, prev, ts, exp) == Replay(w, TickInputs(prev, ts, exp))
    decreases |ts|
  {
    if |ts| > 0 {
      var dt := ts[0] - prev;
      var first := Input.Tick(dt, DecayFactor(exp, dt));
      var rest := TickInputs(ts[0], ts[1..], exp);
      var inputs := TickInputs(prev, ts, exp);
      assert inputs == [first] + rest;
      assert inputs[0] == first && inputs[1..] == rest;
      RunTicksReplays(Apply(w, first), ts[0], ts[1..], exp);
    }
  }

  /** A tick input is a `Tick`, stopped or not. */
  lemma ApplyTick(r: App, trace: seq<Effect>, dt: real, factor: real, s: Stepped)
    requires s == Tick(r, dt, factor)
    ensures Apply(World(r, trace), Input.Tick(dt, factor)) == World(s.app, trace + s.effects)
  {
  }

  /** `Stop`: only the first call has an effect; it releases whatever
      mouse-up is held, so a stopped app holds none. */
  function Stop(a: App): (r: Stepped)
    ensures r.app.stopped
    ensures a.stopped ==> r == Stepped(a, [])
    ensures !a.stopped ==>
      && r.app == a.(stopped := true, pendingMouseUp := NoEvent)
      && DisposesOnly(r.effects, a.pendingMouseUp)
  {
    if a.stopped then Stepped(a, [])
    else Stepped(a.(stopped := true, pendingMouseUp := NoEvent), ReleasePendingMouseUp(a.pendingMouseUp))
  }

  /** What reaches the app: a touch frame (with the cursor query made
      outside the lock and the display box it would cache), a tick with
      its measured `dt` and decay factor, a left button press or release
      seen by the event tap, and the request to stop. */
  datatype Input =
    | Frame(fingerCount: int, timestamp: real, cursor: CursorQuery, display: Bounds)
    | Tick(dt: real, factor: real)
    | LeftMouseDown
    | LeftMouseUp(event: Handle)
    | StopRequested

  /** One input. Once stopped, the app reacts to nothing but a tick:
      `Run`'s `select` chooses at random between the closed stop channel
      and a ready ticker, so coast frames may still run after `Stop`. */
  function Step(a: App, input: Input): (r: Stepped)
    ensures a.stopped && !input.Tick? ==> r == Stepped(a, [])
    ensures a.stopped ==> r.app.stopped
    ensures !input.LeftMouseUp? ==> KeepsOrDisposes(a.pendingMouseUp, r.app.pendingMouseUp, r.effects)
    ensures input.LeftMouseUp? && !a.stopped ==>
      var suppressed := HandleMouseUp(a, input.event).suppressed;
      && r.app.pendingMouseUp == (if suppressed then input.event else a.pendingMouseUp)
      && (forall g: Handle :: g != NoEvent ==>
            Disposals(r.effects, g) == (if suppressed && g == a.pendingMouseUp then 1 else 0))
      && (forall g: Handle :: Retains(r.effects, g) == (if suppressed && g == input.event then 1 else 0))
    ensures input.StopRequested? ==> r.app.stopped && (a.stopped || r.app.pendingMouseUp == NoEvent)
  {
    if a.stopped then
      if input.Tick? then Tick(a, input.dt, input.factor) else Stepped(a, [])
    else
      match input
      case Frame(n, t, cursor, display) => OnTouchFrame(a, n, t, cursor, display)
      case Tick(dt, factor) => Tick(a, dt, factor)
      case LeftMouseDown => OnMouseDown(a)
      case LeftMouseUp(event) =>
        var u := HandleMouseUp(a, event);
        Stepped(u.app, u.effects)
      case StopRequested => Stop(a)
  }

  /** The app together with everything it has done so far. */
  datatype World = World(app: App, trace: seq<Effect>)

  function Apply(w: World, input: Input): World
  {
    var s := Step(w.app, input);
    World(s.app, w.trace + s.effects)
  }

  function Replay(w: World, inputs: seq<Input>): World
    decreases |inputs|
  {
    if |inputs| == 0 then w else Replay(Apply(w, inputs[0]), inputs[1..])
  }

  /** The ownership ledger: every handle is retained at most once, and a
      retained handle is either the one held, not yet disposed of, or has
      been disposed of exactly once. */
  ghost predicate Ledger(trace: seq<Effect>, pending: Handle)
  {
    && (forall g: Handle :: g != NoEvent ==> Retains(trace, g) <= 1)
    && (forall g: Handle :: g != NoEvent ==>
          Disposals(trace, g) == (if g == pending then 0 else Retains(trace, g)))
    && (pending != NoEvent ==> Retains(trace, pending) == 1)
  }

  /** The ledger holds, and a stopped app holds no mouse-up. */
  ghost predicate Owned(w: World)
  {
    Ledger(w.trace, w.app.pendingMouseUp) && (w.app.stopped ==> w.app.pendingMouseUp == NoEvent)
  }

  /** Keeping the held handle, or disposing of exactly it, keeps the ledger. */
  lemma DisposingKeepsLedger(trace: seq<Effect>, es: seq<Effect>, before: Handle, after: Handle)
    requires Ledger(trace, before) && KeepsOrDisposes(before, after, es)
    ensures Ledger(trace + es, after)
  {
    CountsAppend(trace, es);
  }

  /** Retaining a new event in place of the held one, which is disposed
      of, keeps the ledger. */
  lemma WithholdingKeepsLedger(trace: seq<Effect>, es: seq<Effect>, before: Handle, event: Handle)
    requires Ledger(trace, before)
    requires event != NoEvent && Retains(trace, event) == 0
    requires forall g: Handle :: g != NoEvent ==> Disposals(es, g) == (if g == before then 1 else 0)
    requires forall g: Handle :: Retains(es, g) == (if g == event then 1 else 0)
    ensures Ledger(trace + es, event)
  {
    CountsAppend(trace, es);
  }

  /** Every input keeps the ledger, provided a released mouse-up is a new
      event that was never retained before. */
  lemma StepKeepsOwnership(w: World, input: Input)
    requires Owned(w)
    requires input.LeftMouseUp? ==> input.event != NoEvent && Retains(w.trace, input.event) == 0
    ensures Owned(Apply(w, input))
  {
    if w.app.stopped && !input.Tick? {
      assert Step(w.app, input).effects == [];
      assert w.trace + [] == w.trace;
    } else if w.app.stopped {
      StoppedTickKeepsOwnership(w, input.dt, input.factor);
    } else if input.LeftMouseUp? {
      MouseUpKeepsOwnership(w, input.event);
    } else {
      var s := Step(w.app, input);
      DisposingKeepsLedger(w.trace, s.effects, w.app.pendingMouseUp, s.app.pendingMouseUp);
    }
  }

  /** A coast tick that runs after `Stop` holds nothing and disposes of
      nothing, so the ledger is undisturbed. */
  lemma StoppedTickKeepsOwnership(w: World, dt: real, factor: real)
    requires Owned(w) && w.app.stopped
    ensures Owned(Apply(w, Input.Tick(dt, factor)))
  {
    var s := Tick(w.app, dt, factor);
    assert Step(w.app, Input.Tick(dt, factor)) == s;
    DisposingKeepsLedger(w.trace, s.effects, NoEvent, s.app.pendingMouseUp);
  }

  lemma MouseUpKeepsOwnership(w: World, event: Handle)
    requires Owned(w) && !w.app.stopped
    requires event != NoEvent && Retains(w.trace, event) == 0
    ensures Owned(Apply(w, LeftMouseUp(event)))
  {
    var u := HandleMouseUp(w.app, event);
    if u.suppressed {
      WithholdingKeepsLedger(w.trace, u.effects, w.app.pendingMouseUp, event);
    } else {
      assert w.trace + u.effects == w.trace;
    }
  }

  /** Each released mouse-up in the input is a distinct, non-null event. */
  predicate FreshEvents(inputs: seq<Input>)
  {
    && (forall i :: 0 <= i < |inputs| && inputs[i].LeftMouseUp? ==> inputs[i].event != NoEvent)
    && (forall i, j :: 0 <= i < j < |inputs| && inputs[i].LeftMouseUp? && inputs[j].LeftMouseUp? ==>
          inputs[i].event != inputs[j].event)
  }

  lemma {:induction false} ReplayKeepsOwnership(w: World, inputs: seq<Input>)
    requires Owned(w) && FreshEvents(inputs)
    requires forall i :: 0 <= i < |inputs| && inputs[i].LeftMouseUp? ==> Retains(w.trace, inputs[i].event) == 0
    ensures Owned(Replay(w, inputs))
    decreases |inputs|
  {
    if |inputs| > 0 {
      var first := inputs[0];
      var rest := inputs[1..];
      StepKeepsOwnership(w, first);
      var s := Step(w.app, first);
      CountsAppend(w.trace, s.effects);
      forall i | 0 <= i < |rest| && rest[i].LeftMouseUp?
        ensures Retains(Apply(w, first).trace, rest[i].event) == 0
      {
        assert inputs[i + 1] == rest[i];
      }
      ReplayKeepsOwnership(Apply(w, first), rest);
    }
  }

  lemma {:induction false} ReplaySnoc(w: World, inputs: seq<Input>, last: Input)
    ensures Replay(w, inputs + [last]) == Apply(Replay(w, inputs), last)
    decreases |inputs|
  {
    if |inputs| == 0 {
      assert inputs + [last] == [last];
    } else {
      assert (inputs + [last])[1..] == inputs[1..] + [last];
      ReplaySnoc(Apply(w, inputs[0]), inputs[1..], last);
    }
  }

  /** The session's promise: from a fresh app, whatever touch frames,
      ticks, button presses and (distinct) button releases arrive, once
      the app is stopped every mouse-up it retained has been disposed of
      exactly once -- released, posted or turned into the end of the
      drag session -- and no other handle has been disposed of. */
  lemma EveryWithheldMouseUpDisposedOnce(inputs: seq<Input>)
    requires FreshEvents(inputs)
    ensures var w := Replay(World(NewApp(), []), inputs + [StopRequested]);
      forall g: Handle :: g != NoEvent ==> Disposals(w.trace, g) == Retains(w.trace, g) <= 1
  {
    var w0 := World(NewApp(), []);
    ReplayKeepsOwnership(w0, inputs);
    var w1 := Replay(w0, inputs);
    StepKeepsOwnership(w1, StopRequested);
    ReplaySnoc(w0, inputs, StopRequested);
  }

  /** Invariants of the drag state: the accumulator never holds a whole
      pixel; a coast is never running while a finger is down; the app is
      only ever coasting with a non-zero velocity. */
  predicate Valid(a: App)
  {
    && -1.0 < a.accumX < 1.0 && -1.0 < a.accumY < 1.0
    && (!Still(a) ==> !a.isTouched)
    && (a.phase == Coasting ==> !a.isTouched && !Still(a))
  }

  lemma StepKeepsValid(a: App, input: Input)
    requires Valid(a)
    ensures Valid(Step(a, input).app)
  {
  }
}

=== FILE: touch.dfy ===
/** Touch frames (touch.go): the drag-phase state machine driven by the
    finger count, prepared under the lock as a pure transition and
    executed afterwards as a fixed list of effects. */
module Touch {
  import opened Numeric
  import opened AppState
  import opened Effects
  import opened Velocity
  import opened Physics
  import opened Drag
  import Coast

  datatype TouchAction = TouchAction(
    warpX: real, warpY: real, needWarp: bool,
    syncX: real, syncY: real, syncDx: int, syncDy: int, needDragSync: bool,
    releaseX: real, releaseY: real, needDragEnd: bool, needMouseUpOnly: bool,
    pending: Handle)

  /** Go's zero-valued `touchAction`. */
  const NoTouchAction := TouchAction(
    0.0, 0.0, false, 0.0, 0.0, 0, 0, false, 0.0, 0.0, false, false, NoEvent)

  datatype TouchOutcome = TouchOutcome(app: App, action: TouchAction)

  /** The result of querying the cursor position outside the lock. */
  datatype CursorQuery = Failed | At(x: real, y: real)

  /** An action names at most one way of ending the drag, and a handle it
      carries always has one. */
  predicate WellFormed(act: TouchAction)
  {
    && !(act.needDragEnd && act.needMouseUpOnly)
    && (act.pending != NoEvent ==> act.needDragEnd || act.needMouseUpOnly)
  }

  /** The action that only ends the drag with a mouse-up at `(x, y)`. */
  function MouseUpOnlyAt(x: real, y: real, pending: Handle): TouchAction
  {
    NoTouchAction.(releaseX := x, releaseY := y, needMouseUpOnly := true, pending := pending)
  }

  function Record(a: App, x: real, y: real, timestamp: real): App
  {
    a.(history := RecordCursor(a.history, x, y, timestamp))
  }

  predicate NewestIs(a: App, x: real, y: real, timestamp: real)
  {
    |a.history| > 0 && a.history[|a.history| - 1] == CursorRecord(x, y, timestamp)
  }

  /** Fields no touch handler changes. */
  predicate SameGeometry(a: App, b: App)
  {
    a.coastX == b.coastX && a.coastY == b.coastY && a.screen == b.screen && a.stopped == b.stopped
  }

  /** `handleTouchDuringCoast`: a re-touch stops the coast and clears the
      remainder. Several fingers resume the drag at once (warp to the
      coast point, which becomes the newest sample); one finger defers the
      decision and records where the finger is. */
  function HandleTouchDuringCoast(a: App, fingerCount: int, x: real, y: real, timestamp: real): (r: TouchOutcome)
    ensures r.app.accumX == 0.0 && r.app.accumY == 0.0
    ensures r.app.pendingMouseUp == a.pendingMouseUp && r.action.pending == NoEvent
    ensures !r.action.needDragSync && !r.action.needDragEnd && !r.action.needMouseUpOnly
    ensures fingerCount > 1 ==>
      && r.app.phase == Following
      && r.action.needWarp && r.action.warpX == a.coastX && r.action.warpY == a.coastY
      && NewestIs(r.app, a.coastX, a.coastY, timestamp)
      && r.app.history == RecordCursor(a.history, a.coastX, a.coastY, timestamp)
    ensures fingerCount <= 1 ==>
      && r.app.phase == PendingDecision && !r.action.needWarp
      && NewestIs(r.app, x, y, timestamp)
      && r.app.history == RecordCursor(a.history, x, y, timestamp)
    ensures r.app.isLeftButtonDown == a.isLeftButtonDown && r.app.wasMultiFingerDrag == a.wasMultiFingerDrag
    ensures r.app.vx == a.vx && r.app.vy == a.vy && r.app.isTouched == a.isTouched
    ensures SameGeometry(a, r.app)
  {
    var cleared := a.(accumX := 0.0, accumY := 0.0);
    if fingerCount > 1 then
      TouchOutcome(
        Record(cleared.(phase := Following), a.coastX, a.coastY, timestamp),
        NoTouchAction.(warpX := a.coastX, warpY := a.coastY, needWarp := true))
    else
      TouchOutcome(Record(cleared.(phase := PendingDecision), x, y, timestamp), NoTouchAction)
  }

  /** Whether the finger left the coast point by more than the threshold
      on either axis. */
  predicate Moved(a: App, x: real, y: real)
  {
    Abs(x - a.coastX) > DragFollowMovementThreshold || Abs(y - a.coastY) > DragFollowMovementThreshold
  }

  /** `handleTouchDuringPending`: movement ends the drag with a mouse-up
      at the coast origin (not at the finger); more fingers before any
      movement resume the drag from the coast point; otherwise the frame
      is only recorded. */
  function HandleTouchDuringPending(a: App, fingerCount: int, x: real, y: real, timestamp: real): (r: TouchOutcome)
    ensures r.action.needMouseUpOnly <==> Moved(a, x, y)
    ensures Moved(a, x, y) ==>
      && r.action == MouseUpOnlyAt(a.coastX, a.coastY, a.pendingMouseUp)
      && r.app.pendingMouseUp == NoEvent && r.app.phase == None && !r.app.isLeftButtonDown
      && NewestIs(r.app, x, y, timestamp)
      && r.app.history == RecordCursor(a.history, x, y, timestamp)
      && r.app.accumX == a.accumX && r.app.accumY == a.accumY
    ensures !Moved(a, x, y) && fingerCount != 1 ==>
      && r.app.phase == Following
      && r.action == NoTouchAction.(warpX := a.coastX, warpY := a.coastY, needWarp := true)
      && r.app.history == [CursorRecord(a.coastX, a.coastY, timestamp)]
      && r.app.accumX == 0.0 && r.app.accumY == 0.0
      && r.app.pendingMouseUp == a.pendingMouseUp && r.app.isLeftButtonDown == a.isLeftButtonDown
    ensures !Moved(a, x, y) && fingerCount == 1 ==>
      r.app == Record(a, x, y, timestamp) && r.action == NoTouchAction
    ensures r.app.vx == a.vx && r.app.vy == a.vy && r.app.isTouched == a.isTouched
    ensures r.app.wasMultiFingerDrag == a.wasMultiFingerDrag && SameGeometry(a, r.app)
    ensures -1.0 < a.accumX < 1.0 && -1.0 < a.accumY < 1.0 ==>
      -1.0 < r.app.accumX < 1.0 && -1.0 < r.app.accumY < 1.0
  {
    var hasMoved := Abs(x - a.coastX) > DragFollowMovementThreshold
                 || Abs(y - a.coastY) > DragFollowMovementThreshold;
    if !hasMoved && fingerCount == 1 then
      TouchOutcome(Record(a, x, y, timestamp), NoTouchAction)
    else if !hasMoved then
      TouchOutcome(
        Record(a.(phase := Following, accumX := 0.0, accumY := 0.0, history := []),
               a.coastX, a.coastY, timestamp),
        NoTouchAction.(warpX := a.coastX, warpY := a.coastY, needWarp := true))
    else
      TouchOutcome(
        Record(a.(pendingMouseUp := NoEvent, isLeftButtonDown := false, phase := None),
               x, y, timestamp),
        MouseUpOnlyAt(a.coastX, a.coastY, a.pendingMouseUp))
  }

  /** Whether a multi-finger drag has dropped to one finger while a
      mouse-up is held. */
  predicate DropsToOneFinger(a: App, fingerCount: int)
  {
    a.wasMultiFingerDrag && fingerCount == 1 && a.pendingMouseUp != NoEvent
  }

  /** Whether this frame's movement is turned into a drag event. */
  predicate Follows(a: App)
  {
    a.phase == Following && a.isTouched && |a.history| > 0
  }

  /** `handleTouchDefault`: a multi-finger drag that drops to one finger
      ends at the finger with a mouse-up; otherwise, while following, the
      movement since the newest sample goes through the accumulator and a
      drag event is posted only for a non-zero whole-pixel delta. */
  function HandleTouchDefault(a: App, fingerCount: int, x: real, y: real, timestamp: real): (r: TouchOutcome)
    ensures DropsToOneFinger(a, fingerCount) ==>
      && r.action == MouseUpOnlyAt(x, y, a.pendingMouseUp)
      && r.app.pendingMouseUp == NoEvent && r.app.phase == None
      && !r.app.isLeftButtonDown && !r.app.wasMultiFingerDrag
    ensures !DropsToOneFinger(a, fingerCount) ==>
      && r.app.phase == a.phase && r.app.pendingMouseUp == a.pendingMouseUp
      && r.app.isLeftButtonDown == a.isLeftButtonDown
      && r.app.wasMultiFingerDrag == a.wasMultiFingerDrag
      && r.action.pending == NoEvent && !r.action.needMouseUpOnly
    ensures !r.action.needWarp && !r.action.needDragEnd
    ensures r.action.needDragSync ==>
      && a.phase == Following && (r.action.syncDx != 0 || r.action.syncDy != 0)
      && r.action.syncX == x && r.action.syncY == y
    ensures !DropsToOneFinger(a, fingerCount) && Follows(a) ==>
      && r.action.syncDx as real + r.app.accumX == a.accumX + (x - a.history[|a.history| - 1].x)
      && r.action.syncDy as real + r.app.accumY == a.accumY + (y - a.history[|a.history| - 1].y)
      && -1.0 < r.app.accumX < 1.0 && -1.0 < r.app.accumY < 1.0
      && (r.action.needDragSync <==> r.action.syncDx != 0 || r.action.syncDy != 0)
      && (r.app.accumX == 0.0 || (0.0 < r.app.accumX <==> 0.0 < a.accumX + (x - a.history[|a.history| - 1].x)))
      && (r.app.accumY == 0.0 || (0.0 < r.app.accumY <==> 0.0 < a.accumY + (y - a.history[|a.history| - 1].y)))
    ensures !(!DropsToOneFinger(a, fingerCount) && Follows(a)) ==>
      r.app.accumX == a.accumX && r.app.accumY == a.accumY && !r.action.needDragSync
    ensures NewestIs(r.app, x, y, timestamp)
    ensures r.app.history == RecordCursor(a.history, x, y, timestamp)
    ensures r.app.vx == a.vx && r.app.vy == a.vy && r.app.isTouched == a.isTouched
    ensures SameGeometry(a, r.app)
  {
    if a.wasMultiFingerDrag && fingerCount == 1 && a.pendingMouseUp != NoEvent then
      TouchOutcome(
        Record(a.(pendingMouseUp := NoEvent, phase := None, isLeftButtonDown := false,
                  wasMultiFingerDrag := false), x, y, timestamp),
        MouseUpOnlyAt(x, y, a.pendingMouseUp))
    else if a.phase == Following && a.isTouched && |a.history| > 0 then
      var last := a.history[|a.history| - 1];
      var e := ExtractIntegerDelta(a, x - last.x, y - last.y);
      var act :=
        if e.dx != 0 || e.dy != 0 then
          NoTouchAction.(syncDx := e.dx, syncDy := e.dy, needDragSync := true, syncX := x, syncY := y)
        else NoTouchAction.(syncDx := e.dx, syncDy := e.dy);
      TouchOutcome(Record(e.app, x, y, timestamp), act)
    else
      TouchOutcome(Record(a, x, y, timestamp), NoTouchAction)
  }

  /** `handleTouch`: note a multi-finger drag, then dispatch on the phase. */
  function HandleTouch(a: App, fingerCount: int, x: real, y: real, timestamp: real): (r: TouchOutcome)
    ensures Coast.HandsOver(a.pendingMouseUp, r.app.pendingMouseUp, r.action.pending)
    ensures WellFormed(r.action) && !r.action.needDragEnd
    ensures a.isLeftButtonDown && fingerCount > 1 ==> r.app.wasMultiFingerDrag
    ensures r.app.phase != Coasting
    ensures a.phase == Coasting ==> r.app.phase == (if fingerCount > 1 then Following else PendingDecision)
    ensures r.app.vx == a.vx && r.app.vy == a.vy && r.app.isTouched == a.isTouched
    ensures -1.0 < a.accumX < 1.0 && -1.0 < a.accumY < 1.0 ==>
      -1.0 < r.app.accumX < 1.0 && -1.0 < r.app.accumY < 1.0
  {
    var b := if a.isLeftButtonDown && fingerCount > 1 then a.(wasMultiFingerDrag := true) else a;
    match b.phase
    case Coasting => HandleTouchDuringCoast(b, fingerCount, x, y, timestamp)
    case PendingDecision => HandleTouchDuringPending(b, fingerCount, x, y, timestamp)
    case _ => HandleTouchDefault(b, fingerCount, x, y, timestamp)
  }

  /** `releaseDuringPending`: the finger lifted before the decision, so
      the drag ends with a mouse-up at the coast origin and no warp. */
  function ReleaseDuringPending(a: App): (r: TouchOutcome)
    ensures r.action == MouseUpOnlyAt(a.coastX, a.coastY, a.pendingMouseUp)
    ensures r.app == a.(pendingMouseUp := NoEvent, isLeftButtonDown := false, phase := None)
  {
    TouchOutcome(
      a.(pendingMouseUp := NoEvent, isLeftButtonDown := false, phase := None),
      MouseUpOnlyAt(a.coastX, a.coastY, a.pendingMouseUp))
  }

  /** `releaseDefault`: with the button down and a non-zero release
      velocity the drag starts coasting from the cursor; otherwise a held
      mouse-up ends the drag session at the cursor. */
  function ReleaseDefault(a: App, x: real, y: real, display: Bounds): (r: TouchOutcome)
    ensures a.isLeftButtonDown && !Still(a) ==>
      && r.app.phase == Coasting && r.app.coastX == x && r.app.coastY == y
      && r.app.accumX == 0.0 && r.app.accumY == 0.0
      && r.app.screen == CacheScreenBounds(a, display).screen
      && r.app.pendingMouseUp == a.pendingMouseUp && r.action == NoTouchAction
      && r.app.vx == a.vx && r.app.vy == a.vy
    ensures !(a.isLeftButtonDown && !Still(a)) && a.pendingMouseUp != NoEvent ==>
      && r.action == NoTouchAction.(releaseX := x, releaseY := y, needDragEnd := true,
                                    pending := a.pendingMouseUp)
      && DragCleared(r.app) && SameTrack(a, r.app)
    ensures !(a.isLeftButtonDown && !Still(a)) && a.pendingMouseUp == NoEvent ==>
      r == TouchOutcome(a, NoTouchAction)
  {
    if a.isLeftButtonDown && (a.vx != 0.0 || a.vy != 0.0) then
      var started := a.(coastX := x, coastY := y, accumX := 0.0, accumY := 0.0, phase := Coasting);
      TouchOutcome(CacheScreenBounds(started, display), NoTouchAction)
    else if a.pendingMouseUp != NoEvent then
      var t := ResetCoasting(a);
      TouchOutcome(t.app, NoTouchAction.(releaseX := x, releaseY := y, needDragEnd := true, pending := t.pending))
    else
      TouchOutcome(a, NoTouchAction)
  }

  /** `handleRelease`: the release edge. The velocity comes from the
      history, which is then emptied. */
  function HandleRelease(a: App, x: real, y: real, display: Bounds): (r: TouchOutcome)
    ensures |r.app.history| == 0
    ensures Coast.HandsOver(a.pendingMouseUp, r.app.pendingMouseUp, r.action.pending)
    ensures WellFormed(r.action) && !r.action.needWarp && !r.action.needDragSync
    ensures a.phase == PendingDecision ==>
      && r.action == MouseUpOnlyAt(a.coastX, a.coastY, a.pendingMouseUp)
      && r.app.phase == None && !r.app.isLeftButtonDown
      && (r.app.vx, r.app.vy) == CalcReleaseVelocity(a.history)
    ensures (a.phase != PendingDecision && a.isLeftButtonDown
             && CalcReleaseVelocity(a.history) != (0.0, 0.0)) ==>
      && r.app.phase == Coasting && r.app.coastX == x && r.app.coastY == y
      && (r.app.vx, r.app.vy) == CalcReleaseVelocity(a.history)
      && r.app.accumX == 0.0 && r.app.accumY == 0.0
    ensures (a.phase != PendingDecision
             && !(a.isLeftButtonDown && CalcReleaseVelocity(a.history) != (0.0, 0.0))
             && a.pendingMouseUp != NoEvent) ==>
      && r.action.needDragEnd && r.action.releaseX == x && r.action.releaseY == y
      && DragCleared(r.app)
    ensures -1.0 < a.accumX < 1.0 && -1.0 < a.accumY < 1.0 ==>
      -1.0 < r.app.accumX < 1.0 && -1.0 < r.app.accumY < 1.0
  {
    var v := CalcReleaseVelocity(a.history);
    var b := a.(vx := v.0, vy := v.1, history := []);
    match b.phase
    case PendingDecision => ReleaseDuringPending(b)
    case _ => ReleaseDefault(b, x, y, display)
  }

  /** `prepareTouchFrame`: a touched frame goes to `HandleTouch` and stops
      any coast; the first untouched frame after a touched one is the
      release edge; further untouched frames change nothing. */
  function PrepareTouchFrame(a: App, fingerCount: int, x: real, y: real, timestamp: real, display: Bounds): (r: TouchOutcome)
    ensures r.app.isTouched == (fingerCount > 0)
    ensures fingerCount > 0 ==> Still(r.app) && r.app.phase != Coasting
    ensures fingerCount <= 0 && !a.isTouched ==> r == TouchOutcome(a, NoTouchAction)
    ensures fingerCount <= 0 && a.isTouched ==> |r.app.history| == 0
    ensures Coast.HandsOver(a.pendingMouseUp, r.app.pendingMouseUp, r.action.pending)
    ensures WellFormed(r.action)
    ensures -1.0 < a.accumX < 1.0 && -1.0 < a.accumY < 1.0 ==>
      -1.0 < r.app.accumX < 1.0 && -1.0 < r.app.accumY < 1.0
  {
    var isTouched := fingerCount > 0;
    if isTouched then
      var t := HandleTouch(a, fingerCount, x, y, timestamp);
      TouchOutcome(t.app.(vx := 0.0, vy := 0.0, isTouched := true), t.action)
    else if a.isTouched then
      var t := HandleRelease(a, x, y, display);
      TouchOutcome(t.app.(isTouched := false), t.action)
    else
      TouchOutcome(a.(isTouched := false), NoTouchAction)
  }

  /** `executeTouchAction`: warp, then drag event, then the disposal of
      the carried handle through the path the action names, falling back
      to a plain post. */
  function ExecuteTouchAction(action: TouchAction): (es: seq<Effect>)
    ensures DisposesOnly(es, action.pending)
    ensures action.needWarp ==> |es| > 0 && es[0] == SyncCursor(action.warpX, action.warpY)
    ensures action.needDragSync ==>
      var i := if action.needWarp then 1 else 0;
      |es| > i && es[i] == SyntheticDrag(action.syncX, action.syncY, action.syncDx, action.syncDy)
    ensures action.needDragEnd ==>
      |es| > 0 && es[|es| - 1] == EndDragSession(action.pending, action.releaseX, action.releaseY)
    ensures !action.needDragEnd && action.needMouseUpOnly && action.pending != NoEvent ==>
      |es| > 0 && es[|es| - 1] == PostMouseUpAt(action.pending, action.releaseX, action.releaseY)
    ensures !action.needDragEnd && !action.needMouseUpOnly && action.pending != NoEvent ==>
      |es| > 0 && es[|es| - 1] == PostMouseUp(action.pending)
    // Nothing else: at most one warp, one drag event and one disposal.
    ensures |es| == (if action.needWarp then 1 else 0) + (if action.needDragSync then 1 else 0)
                    + (if action.needDragEnd || action.pending != NoEvent then 1 else 0)
  {
    var warp := if action.needWarp then [SyncCursor(action.warpX, action.warpY)] else [];
    var sync :=
      if action.needDragSync then [SyntheticDrag(action.syncX, action.syncY, action.syncDx, action.syncDy)]
      else [];
    var ending :=
      if action.needDragEnd then [EndDragSession(action.pending, action.releaseX, action.releaseY)]
      else [];
    var p1 := if action.needDragEnd then NoEvent else action.pending;
    var upOnly := if action.needMouseUpOnly then ReleasePendingMouseUpAt(p1, action.releaseX, action.releaseY) else [];
    var p2 := if action.needMouseUpOnly then NoEvent else p1;
    var disposal := ending + upOnly + ReleasePendingMouseUp(p2);
    Coast.MotionDisposesNothing(warp + sync);
    CountSingle(EndDragSession(action.pending, action.releaseX, action.releaseY));
    CountsAppend3(ending, upOnly, ReleasePendingMouseUp(p2));
    CountsAppend3(warp + sync, disposal, []);
    assert warp + sync + disposal + [] == warp + sync + disposal;
    warp + sync + disposal
  }

  /** `onTouchFrame`: a failed cursor query skips the frame entirely;
      otherwise prepare, then execute. Whatever handle leaves the state is
      disposed of exactly once, and nothing is acquired. */
  function OnTouchFrame(a: App, fingerCount: int, timestamp: real, cursor: CursorQuery, display: Bounds): (r: Stepped)
    ensures cursor.Failed? ==> r == Stepped(a, [])
    ensures cursor.At? ==> r.app.isTouched == (fingerCount > 0)
    ensures r.app.pendingMouseUp == a.pendingMouseUp || r.app.pendingMouseUp == NoEvent
    ensures DisposesOnly(r.effects, if r.app.pendingMouseUp == NoEvent then a.pendingMouseUp else NoEvent)
  {
    match cursor
    case Failed => Stepped(a, [])
    case At(x, y) =>
      var t := PrepareTouchFrame(a, fingerCount, x, y, timestamp, display);
      Stepped(t.app, ExecuteTouchAction(t.action))
  }
}

=== FILE: velocity.dfy ===
/** The velocity tracker (touch.go): a two-slot cursor history and the
    release velocity computed from it. */
module Velocity {
  import opened AppState

  /** Reference definition: the newest two entries of a sample stream. */
  function LastTwo(s: seq<CursorRecord>): seq<CursorRecord>
  {
    if |s| <= 2 then s else s[|s| - 2..]
  }

  /** `recordCursor`: append while fewer than two samples are held,
      otherwise shift slot 1 into slot 0 and write the new sample to slot 1. */
  function RecordCursor(h: History, x: real, y: real, timestamp: real): (r: History)
    ensures r == LastTwo(h + [CursorRecord(x, y, timestamp)])
    ensures |r| == (if |h| < 2 then |h| + 1 else 2)
    ensures r[|r| - 1] == CursorRecord(x, y, timestamp)
    ensures |h| == 2 ==> r[0] == h[1]
  {
    if |h| < 2 then h + [CursorRecord(x, y, timestamp)]
    else [h[1], CursorRecord(x, y, timestamp)]
  }

  /** Recording a stream of samples one by one leaves exactly the newest
      two of everything recorded so far. */
  lemma {:induction false} RecordStreamKeepsLastTwo(h: History, s: seq<CursorRecord>)
    ensures RecordAll(h, s) == LastTwo(h + s)
    decreases |s|
  {
    if |s| == 0 {
      assert h + s == h;
    } else {
      var h' := RecordCursor(h, s[0].x, s[0].y, s[0].timestamp);
      RecordStreamKeepsLastTwo(h', s[1..]);
      assert h + s == (h + [s[0]]) + s[1..];
      LastTwoOfSuffix(h + [s[0]], s[1..]);
    }
  }

  /** Feeds every sample of `s` through `RecordCursor`. */
  function RecordAll(h: History, s: seq<CursorRecord>): History
    decreases |s|
  {
    if |s| == 0 then h
    else RecordAll(RecordCursor(h, s[0].x, s[0].y, s[0].timestamp), s[1..])
  }

  lemma LastTwoOfSuffix(p: seq<CursorRecord>, s: seq<CursorRecord>)
    ensures LastTwo(LastTwo(p) + s) == LastTwo(p + s)
  {
  }

  /** `calcReleaseVelocity`: (0, 0) unless two samples at least
      `MinTimeDelta` apart are held; otherwise displacement over time. */
  function CalcReleaseVelocity(h: History): (v: (real, real))
    ensures |h| < 2 ==> v == (0.0, 0.0)
    ensures |h| == 2 && h[1].timestamp - h[0].timestamp < MinTimeDelta ==> v == (0.0, 0.0)
    ensures |h| == 2 && h[1].timestamp - h[0].timestamp >= MinTimeDelta ==>
      && v.0 * (h[1].timestamp - h[0].timestamp) == h[1].x - h[0].x
      && v.1 * (h[1].timestamp - h[0].timestamp) == h[1].y - h[0].y
  {
    if |h| < 2 then (0.0, 0.0)
    else
      var prev, curr := h[0], h[1];
      var dt := curr.timestamp - prev.timestamp;
      if dt < MinTimeDelta then (0.0, 0.0)
      else ((curr.x - prev.x) / dt, (curr.y - prev.y) / dt)
  }

  /** No net movement between the two samples means no flick, however
      close together they are. */
  lemma StationaryReleaseHasNoVelocity(h: History)
    requires |h| == 2 && h[0].x == h[1].x && h[0].y == h[1].y
    ensures CalcReleaseVelocity(h) == (0.0, 0.0)
  {
    var dt := h[1].timestamp - h[0].timestamp;
    if dt >= MinTimeDelta {
      assert (h[1].x - h[0].x) / dt == 0.0;
      assert (h[1].y - h[0].y) / dt == 0.0;
    }
  }
}
